=== FILE: README.md ===
# organizador.py in Dafny

`organizador.py` is a small in-memory file organiser. The class `SistemaArquivos` keeps three things:

- a root directory `Node("/", "diretorio")`;
- a relevance heap of `(-acessos, -tamanho, nome, tipo)` tuples, managed with `heapq`;
- an undo stack of tuples.

Every directory keeps its children in a binary search tree ordered by name. The tree is linked through the children's own `esq`/`dir` fields and rooted at the directory's `filhos`. The operations work on directories named by slash-separated paths:

- `criar`, `excluir`, `renomear` and `mover` change the tree;
- `acessar` counts an access and pushes a heap tuple;
- `sugeridos` reports the most accessed names without changing the heap;
- `desfazer` replays the inverse of the last change;
- `listar` lists a directory's subtree recursively.

This project models that core and proves properties of it.

Layout, one module per concern:

- `Texto` (texto.dfy): Python's string order `<`, and `strip("/")`, `rstrip("/")`, `split("/")` and `replace("//", "/")` on strings.
- `Arvore` (arvore.dfy): `Node` as a value (`Tree`) and the three search-tree routines `_inserir_bst`, `_buscar_bst` and `_excluir_bst`.
- `Serial` (serial.dfy): `Node.to_dict` and `Node.from_dict` over a small JSON value type.
- `Caminho` (caminho.dfy): `_navegar` as a walk from the root, and the write `pai.filhos = ...` on the directory a path leads to (`SetFilhos`).
- `Ranking` (ranking.dfy):
  - the heap tuples and Python's tuple order on them;
  - the pop of a least entry;
  - `Sugestoes`, an independent description of what `sugeridos` returns.
- `Operacoes` (operacoes.dfy):
  - each public operation as a transition on the state `(raiz, heap, undo)`;
  - the invariant `Valido` (every directory's children form a search tree), with lemmas proving each operation keeps it;
  - lemmas for each operation's effect;
  - round trips through `desfazer`.
- `Listagem` (listagem.dfy): the pairs `_listar_recursivo` appends, and their order.
- `Sistema` (sistema.dfy): the class `SistemaArquivos` with fields `raiz`, `heap` and `undo`. Each method is written the way the program does it: `_navegar` and `_buscar_bst` are loops, the pop loop and the re-push loop of `sugeridos` are loops, and `_listar_recursivo` is recursive. Each method is proved to perform the matching `Operacoes` transition, or to meet its description.

The model reproduces these behaviours of the program:

- `excluir` of a node with two children hands back the node that took over its in-order successor's fields, not the node found, and records it for `desfazer`.
- `renomear` does not check that the new name is free; duplicate names can then coexist (name contents are multisets).
- `renomear` and `mover` give no special treatment to the root.
- `mover` does not check for a name collision in the destination.
- `desfazer` returns True once it has popped a record, whatever the replayed operation returns.
- Replaying an "excluir", "renomear" or "mover" record pushes that operation's own record when it succeeds; replaying a "criar" record pushes nothing.
- `desfazer` of a "criar" record whose directory no longer resolves fails, in the program with an AttributeError. Here this is the outcome `Erro`, with the record already popped.

## Model

| member | source | states |
|---|---|---|
| Texto.LessIrreflexive | organizador.py:68 | no name is below itself under Python's string `<` |
| Texto.LessTransitive | organizador.py:68 | string `<` is transitive |
| Texto.LessTotal | organizador.py:68 | two names are equal or one is below the other |
| Texto.LessAsymmetric | organizador.py:68 | string `<` never holds both ways |
| Texto.LStrip | organizador.py:116 | the result is a suffix of the input, does not start with "/", and only "/" was removed |
| Texto.RStrip | organizador.py:251 | the result is a prefix of the input, does not end with "/", and only "/" was removed |
| Texto.Split | organizador.py:116 | `split("/")` gives at least one part, and no part contains "/" |
| Texto.JoinSplit | organizador.py:116 | joining the parts with "/" gives back the string |
| Texto.SplitJoin | organizador.py:116 | splitting a join of slash-free parts gives back the parts |
| Texto.CollapseSlashesIdentity | organizador.py:260 | `replace("//", "/")` leaves a string unchanged exactly when it has no "//" |
| Arvore.Inserir | organizador.py:65-72 | `_inserir_bst` returns a node; its names are the old ones plus the new node's; well-formedness is kept |
| Arvore.InserirBst | organizador.py:65-72 | inserting a node without sibling links into a search tree gives a search tree |
| Arvore.InserirInOrder | organizador.py:65-72 | the in-order names become the old ones with the new name inserted after every name not above it, one more in all |
| Arvore.BstSorted | organizador.py:68-71 | the in-order names of a search tree are sorted |
| Arvore.FindInserir | organizador.py:65-72 | an absent name, once inserted, is found as the inserted node |
| Arvore.FindInserirOther | organizador.py:65-72 | inserting a node without links changes no other name's lookup |
| Arvore.FindInserirFound | organizador.py:65-72 | inserting a name the lookup already finds leaves it finding the same node, since ties go below it |
| Arvore.Find | organizador.py:74-79 | a found node carries the name looked for, a name that occurs in the tree |
| Arvore.FindComplete | organizador.py:74-79 | on a search tree, a name is found exactly when it occurs |
| Arvore.BuscarBst | organizador.py:74-79 | the loop returns the lookup result, and on a search tree it finds a name exactly when it occurs |
| Arvore.Remover | organizador.py:81-108 | what `_excluir_bst` hands back, when anything, is a node |
| Arvore.RemoverFind | organizador.py:81-91 | something is removed exactly when the name is found; otherwise the tree is unchanged |
| Arvore.RemoverOrdered | organizador.py:81-108 | removal keeps a search tree and takes out exactly one occurrence of the name |
| Arvore.LeftmostMin | organizador.py:99-102 | the leftmost node of a search tree occurs in it, and no name in it is below it |
| Arvore.RemoverRemovido | organizador.py:93-108 | with an empty side the found node is handed back; with two children the handed-back node has the successor's fields over the found node's links |
| Arvore.RemoverWellFormed | organizador.py:81-108 | removal keeps every directory's tree a search tree, in the remaining tree and in the handed-back node |
| Arvore.FindRemoverOther | organizador.py:81-108 | removing a node without links changes no other name's lookup |
| Arvore.FindLeftmost | organizador.py:99-102 | in a search tree the lookup of the least name reaches the leftmost node |
| Arvore.FindRemoverOtherBst | organizador.py:81-108 | in a search tree, deleting a name changes no other name's lookup, up to sibling links, in all three cases of the deletion |
| Arvore.FindRemoverRaiz | organizador.py:93-108 | deleting the root of a search tree keeps every other name's lookup |
| Arvore.FindRemoverSucessor | organizador.py:99-108 | deleting a root with two children, which takes its successor's fields, keeps every other name's lookup |
| Arvore.ExcluirBst | organizador.py:81-108 | the recursive method computes the removal function |
| Arvore.RemoverInserir | organizador.py:65-108 | removing a name just inserted gives back the old tree and the inserted node |
| Arvore.InserirRemover | organizador.py:65-108 | inserting again a removed node without links rebuilds the tree |
| Arvore.Substituir | organizador.py:193 | updating one node's fields inside a tree keeps its names, its search order and well-formedness |
| Arvore.FindSubstituir | organizador.py:193 | after the update the name finds the new fields over the old links |
| Arvore.FindSubstituirOther | organizador.py:193 | the update changes no other name's lookup |
| Serial.ToDict | organizador.py:30-39 | `None` exactly for a missing node, and otherwise a dictionary with exactly the seven keys |
| Serial.TipoDe | organizador.py:45 | a `tipo` string read back names the kind it was written from |
| Serial.FromDict | organizador.py:41-50 | a falsy value gives `None`, and a node read back takes its name from the "nome" key |
| Serial.FromDictToDict | organizador.py:30-50 | `from_dict(to_dict(n))` rebuilds `n`, links and children included |
| Serial.ToDictInjective | organizador.py:30-39 | different nodes have different dictionaries |
| Caminho.Segmentos | organizador.py:113-116 | every path other than "/" has at least one segment |
| Caminho.Resolver | organizador.py:116-120 | the walk ends at a node, a directory when at least one step was taken, well formed in a well-formed tree |
| Caminho.ResolverConcat | organizador.py:116-120 | walking `a + b` is walking `a`, then `b` from where `a` ended |
| Caminho.ResolverFails | organizador.py:116-119 | the walk fails exactly when some step finds no child or finds a file |
| Caminho.SetFilhos | organizador.py:132 | `pai.filhos = f` keeps every field of the root but its children; a path that does not resolve changes nothing |
| Caminho.ResolverFora | organizador.py:132 | the frame of the write: a directory whose path parts from the written one keeps every field, its children included |
| Caminho.ResolverDentro | organizador.py:132 | a directory below the written one keeps every field when the new children agree with the old ones on the child its path enters |
| Caminho.ResolverAcima | organizador.py:132 | a directory above the written one keeps every field but its children, which keep their names and search order |
| Caminho.ResolverOutro | organizador.py:132 | any other resolvable directory keeps every field but its children, and the names in them, when the new children agree with the old ones on the child a path below enters |
| Caminho.ResolverSetFilhos | organizador.py:132 | after the write the path leads to the same directory, now holding `f` |
| Caminho.SetFilhosTwice | organizador.py:157-162 | of two writes to the same directory the second wins |
| Caminho.SetFilhosSame | organizador.py:143-145 | writing back a directory's own children changes nothing |
| Caminho.ResolverOutside | organizador.py:169-178 | a destination outside the moved node still resolves after it left the origin |
| Sistema.SistemaArquivos.Navegar | organizador.py:111-120 | the loop returns what the walk from the root gives |
| Operacoes.Inicial | organizador.py:57-60 | the initial state is valid: root "/" with no children, empty heap and undo stack |
| Sistema.SistemaArquivos.constructor | organizador.py:57-60 | the new object holds the initial state and is valid |
| Operacoes.Criar | organizador.py:123-135 | succeeds exactly when the directory resolves and lacks the name; a failure changes nothing; a success keeps the heap and pushes ("excluir", caminho, nome) |
| Operacoes.CriarEfeito | organizador.py:131-132 | the directory then finds the new node, holds one name more and finds every other name as before |
| Operacoes.CriarFora | organizador.py:123-135 | a directory whose path parts from `caminho` is left exactly as it was |
| Operacoes.CriarValido | organizador.py:123-135 | `criar` keeps the state valid |
| Sistema.SistemaArquivos.Criar | organizador.py:123-135 | the method performs `Operacoes.Criar` and keeps the object valid |
| Operacoes.Excluir | organizador.py:138-149 | succeeds exactly when the directory has the name; a failure changes nothing; the heap is kept |
| Operacoes.ExcluirEfeito | organizador.py:143-147 | the directory holds one occurrence fewer, stays a search tree and finds every other name as before; the record keeps the handed-back node |
| Operacoes.ExcluirFora | organizador.py:138-149 | a directory whose path parts from `caminho` is left exactly as it was |
| Operacoes.ExcluirValido | organizador.py:138-149 | `excluir` keeps the state valid |
| Sistema.SistemaArquivos.Excluir | organizador.py:138-149 | the method performs `Operacoes.Excluir` and keeps the object valid |
| Operacoes.Renomear | organizador.py:152-165 | succeeds exactly when the directory has the old name; a failure changes nothing; a success pushes ("renomear", caminho, novo, antigo) |
| Operacoes.RenomearRaiz | organizador.py:157-162 | the directory gets the tree without the node plus the node under its new name |
| Operacoes.RenomearEfeito | organizador.py:157-162 | one old name traded for one new name, still a search tree, every third name found as before; a free new name finds the renamed node with its other fields kept |
| Operacoes.RenomearFora | organizador.py:152-165 | a directory whose path parts from `caminho` is left exactly as it was |
| Operacoes.RenomearValido | organizador.py:152-165 | `renomear` keeps the state valid |
| Sistema.SistemaArquivos.Renomear | organizador.py:152-165 | the method performs `Operacoes.Renomear` and keeps the object valid |
| Operacoes.DestinoPermanece | organizador.py:169-178 | the destination still resolves once the node has left the origin |
| Operacoes.MoverDestino | organizador.py:169-178 | looking the destination up after the removal reaches the directory looked up before it: the same fields but the children, and the same names in them unless it is the origin |
| Operacoes.MoverOrigem | organizador.py:174-178 | once the node is in a different destination, the origin's children hold the names of its tree without the node, and its other fields are kept |
| Operacoes.Mover | organizador.py:168-181 | succeeds exactly when both directories resolve and the origin has the name; a failure changes nothing; a success pushes ("mover", destino, nome, origem) |
| Operacoes.MoverRaiz | organizador.py:174-178 | the node found in the origin is inserted into the destination's tree |
| Operacoes.MoverEfeito | organizador.py:174-178 | between two different directories: the origin holds one occurrence of the name less and the destination one more, both stay search trees, and a name free in the destination then finds the moved node there; neither directory changes a field besides its children, and when neither lies on the other's path each finds every other name as before |
| Operacoes.MoverSeparado | organizador.py:174-178 | when neither directory lies on the other's path, each finds every name but the moved one as before |
| Operacoes.MoverFora | organizador.py:168-181 | a directory whose path parts from both the origin and the destination is left exactly as it was |
| Operacoes.MoverValido | organizador.py:168-181 | `mover` keeps the state valid |
| Sistema.SistemaArquivos.Mover | organizador.py:168-181 | the method performs `Operacoes.Mover` and keeps the object valid |
| Operacoes.Acessar | organizador.py:184-196 | succeeds exactly when the directory has the name; the heap gains the updated node's tuple; the undo stack is kept |
| Operacoes.AcessarEfeito | organizador.py:189-193 | the node is found with exactly one more access, and every other name as before |
| Operacoes.AcessarFora | organizador.py:184-196 | a directory whose path parts from `caminho` is left exactly as it was |
| Operacoes.AcessarValido | organizador.py:184-196 | `acessar` keeps the state valid |
| Sistema.SistemaArquivos.Acessar | organizador.py:184-196 | the method performs `Operacoes.Acessar` and keeps the object valid |
| Sistema.SistemaArquivos.Empurrar | organizador.py:194 | `heappush` adds the entry to the heap and changes nothing else |
| Ranking.KindLtRotulo | organizador.py:194 | the order on kinds is Python's order on their strings |
| Ranking.LtTotal | organizador.py:205 | two heap tuples are equal or one is below the other |
| Ranking.LtTransitive | organizador.py:205 | the tuple order is transitive |
| Ranking.LtAsymmetric | organizador.py:205 | the tuple order never holds both ways |
| Ranking.MinimoExiste | organizador.py:205 | a non-empty heap has a least entry |
| Sistema.SistemaArquivos.Retirar | organizador.py:205 | `heappop` takes out a least entry and returns it |
| Ranking.Exibir | organizador.py:207 | the reported tuple keeps the entry's name and kind |
| Ranking.Chave | organizador.py:207 | the entry a reported tuple came from; reporting it again gives the tuple |
| Ranking.MelhorUnico | organizador.py:204-208 | each name has one least entry |
| Ranking.SugestoesUnicas | organizador.py:199-214 | the description of the result admits only one result per heap and `qtd` |
| Sistema.PassoParcial | organizador.py:204-209 | one pop keeps the loop invariant of `sugeridos` |
| Sistema.Completo | organizador.py:204 | when the pop loop stops, the reported tuples meet the description |
| Sistema.SistemaArquivos.Devolver | organizador.py:211-212 | every popped entry is pushed back |
| Sistema.SistemaArquivos.Sugeridos | organizador.py:199-214 | the heap ends as it began, and the result is at most `qtd` distinct names, each its name's least entry, in increasing order, with nothing smaller left out |
| Operacoes.Repetir | organizador.py:222-239 | replaying a record never ends as "nothing to undo"; it ends as an error exactly for a "criar" record whose directory does not resolve, and then changes nothing; the heap is kept; the stack keeps its records and gains at most one, none for a "criar" record |
| Operacoes.Desfazer | organizador.py:217-242 | "nothing to undo" exactly on an empty stack, then with nothing changed; an error exactly when the top record is a "criar" whose directory does not resolve, and then only the top record is gone; otherwise the top record leaves the stack, the older ones stay, and at most one new record is pushed, none for a "criar" record |
| Operacoes.ReinserirValido | organizador.py:229-231 | putting a well-formed node back keeps the state valid |
| Operacoes.PopValido | organizador.py:221 | popping the top record keeps the state valid |
| Operacoes.RepetirValido | organizador.py:222-239 | replaying a record keeps the state valid |
| Operacoes.DesfazerValido | organizador.py:217-242 | `desfazer` keeps the state valid |
| Operacoes.CriarDesfazer | organizador.py:224-226 | undoing a `criar` deletes the node again: the tree is back as it was, with the "criar" record of that deletion on the stack |
| Operacoes.ExcluirDesfazer | organizador.py:228-231 | undoing an `excluir` of a node without links restores the whole state |
| Operacoes.RenomearDesfazer | organizador.py:233-235 | undoing a `renomear` to a free name restores the tree and pushes the record of the renaming back |
| Sistema.SistemaArquivos.Desfazer | organizador.py:217-242 | the method performs `Operacoes.Desfazer` and keeps the object valid |
| Sistema.SistemaArquivos.Repetir | organizador.py:222-239 | the method replays one record as `Operacoes.Repetir` does and keeps the object valid |
| Listagem.CaminhoCompletoLimpo | organizador.py:260 | joining a clean path and a slash-free name needs no collapsing |
| Listagem.Bloco | organizador.py:260-264 | a node's block starts with its own full path and kind |
| Listagem.Nos | organizador.py:254-266 | the nodes of a tree, in in-order, one per name |
| Listagem.ListagemEmOrdem | organizador.py:254-266 | the listing is each node's block in in-order, and on a search tree that is ascending name order |
| Listagem.ListagemCompleta | organizador.py:254-266 | every node of the tree is in the listing, with its full path and its kind |
| Listagem.ListagemTamanho | organizador.py:254-266 | the listing has at least one pair per node of the tree |
| Sistema.SistemaArquivos.ListarRecursivo | organizador.py:254-266 | the recursion appends exactly the listing of the subtree to the list it was given |
| Sistema.SistemaArquivos.Listar | organizador.py:245-252 | the method returns the listing of the directory, or nothing when the path does not resolve |

## Left out

- `salvar` and `carregar` (organizador.py:268-278), and the `salvar()` call that ends each operation: file I/O. The model starts from the fresh root, as after `__init__` with no saved file; `to_dict`/`from_dict` are modelled on their own.
- `pausa`, `escolher_item` and the menu loop (organizador.py:8-9, 284-385): console I/O.
- The `arquivo` file name field (organizador.py:61): used only by the I/O above.
- The list layout `heapq` keeps: the heap is the multiset of its entries. A pop takes out a least entry, so every pop returns the same tuple as `heappop`. Only the order of the list as it would be saved is not modelled.
- `tipo` is one of the two strings the program creates ("arquivo", "diretorio"), as a two-valued kind. The program itself accepts any string.
- Object identity. Nodes are values, so an update in place is a rebuilt tree, and shared or cyclic nodes cannot be expressed.
- Operacoes.Renomear: requires that the node taken out has no `esq`/`dir` links. The program's node keeps its links when it has one child, and in the two-child case it is a node still inside the tree, so putting it back would share nodes or create a cycle.
- Operacoes.Mover: requires the same of the moved node. It also requires that a directory is not moved into its own subtree, which in the program detaches the subtree.
- Operacoes.Mover: looks the destination up again after the removal. Under its precondition this reaches a directory with the same fields as the one the program looked up before the removal, except its children, which hold the same names unless the destination is the origin (Operacoes.MoverDestino). Object identity is not modelled.
- Operacoes.Desfazer: requires the top record's preconditions above (`DesfazerSeguro`), and that a "criar" record's node has no links. The record of a two-child `excluir` holds a node that keeps the found node's links, so replaying it is outside the model.
- Operacoes.Repetir: has the same requirement for the record it replays.
- Sistema.SistemaArquivos.Renomear, Sistema.SistemaArquivos.Mover, Sistema.SistemaArquivos.Desfazer and Sistema.SistemaArquivos.Repetir: carry the preconditions of the transitions they perform.
- Operacoes.ExcluirDesfazer: requires that the deleted node has no links. With a link, the node put back by `desfazer` carries stale links.
- Operacoes.RenomearDesfazer: requires that the new name was free. With a clash, the renaming back may pick the other node of that name.
- The round trip of `mover` through `desfazer` is not proved. Only its validity and its effect (Operacoes.MoverEfeito) are.
- Operacoes.MoverEfeito: states the contents of both directories only when they differ; moving within one directory is covered by validity alone. When one directory lies on the other's path, the lookups of other names are not stated, because the child on that path changes below.
- Serial.FromDict: returns no node for dictionaries whose fields have types a node here cannot hold: a non-string `nome`, a `tipo` other than the two strings, or a non-integer `tamanho`/`acessos`. Python would build such a node.
- Sistema.SistemaArquivos.Repetir: the replay branch of `desfazer` is a method of its own. In the program it is inline.

=== FILE: arvore.dfy ===
/** The per-directory binary search tree of organizador.py: `Node` and the methods
    `_inserir_bst`, `_buscar_bst` and `_excluir_bst`, with trees as values. */
module Arvore {
  import opened Texto

  /** The two `tipo` strings the program uses: "arquivo" and "diretorio". */
  datatype Kind = Arquivo | Diretorio

  /** The string the program stores in `tipo`. */
  function Rotulo(k: Kind): string
  {
    match k
    case Arquivo => "arquivo"
    case Diretorio => "diretorio"
  }

  /** A `Node`, or `None` for `Leaf`. `esq`/`dir` link the node into its parent's
      tree; `filhos` is the root of this directory's own tree of children. */
  datatype Tree =
    | Leaf
    | Node(nome: string, tipo: Kind, tamanho: int, acessos: int, esq: Tree, dir: Tree, filhos: Tree)

  /** `Node(nome, tipo, tamanho)`: no accesses, no links, no children. */
  function NovoNo(nome: string, tipo: Kind, tamanho: int): Tree
  {
    Node(nome, tipo, tamanho, 0, Leaf, Leaf, Leaf)
  }

  /** A node that is not linked to any sibling. */
  predicate Detached(n: Tree)
  {
    n.Node? && n.esq == Leaf && n.dir == Leaf
  }

  /** The node's own fields without its sibling links. */
  function Dados(n: Tree): Tree
    requires n.Node?
  {
    n.(esq := Leaf, dir := Leaf)
  }

  function DadosOpt(o: Option<Tree>): Option<Tree>
    requires o.Some? ==> o.value.Node?
  {
    match o
    case None => None
    case Some(n) => Some(Dados(n))
  }

  /** The names of a tree in in-order. */
  function Names(t: Tree): seq<string>
  {
    match t
    case Leaf => []
    case Node(_, _, _, _, _, _, _) => Names(t.esq) + [t.nome] + Names(t.dir)
  }

  /** The names of a tree, counted with their multiplicity. */
  function NameBag(t: Tree): multiset<string>
  {
    match t
    case Leaf => multiset{}
    case Node(_, _, _, _, _, _, _) => NameBag(t.esq) + multiset{t.nome} + NameBag(t.dir)
  }

  lemma {:induction false} NameBagNames(t: Tree)
    ensures multiset(Names(t)) == NameBag(t)
  {
    if t.Node? {
      NameBagNames(t.esq);
      NameBagNames(t.dir);
    }
  }

  /** Left names are strictly less than the node's, right names are not less. */
  ghost predicate Bst(t: Tree)
  {
    match t
    case Leaf => true
    case Node(_, _, _, _, _, _, _) =>
      && Bst(t.esq) && Bst(t.dir)
      && (forall x | x in NameBag(t.esq) :: Less(x, t.nome))
      && (forall x | x in NameBag(t.dir) :: !Less(x, t.nome))
  }

  /** Every directory reachable from the tree holds a search tree of children. */
  ghost predicate WellFormed(t: Tree)
  {
    match t
    case Leaf => true
    case Node(_, _, _, _, _, _, _) =>
      WellFormed(t.esq) && WellFormed(t.dir) && WellFormed(t.filhos) && Bst(t.filhos)
  }

  ghost predicate Sorted(s: seq<string>)
  {
    forall i, j | 0 <= i < j < |s| :: !Less(s[j], s[i])
  }

  /** The order facts of a search-tree node, read on its in-order name sequences. */
  lemma {:induction false} BstNamesBounds(t: Tree)
    requires t.Node? && Bst(t)
    ensures forall x | x in Names(t.esq) :: Less(x, t.nome)
    ensures forall x | x in Names(t.dir) :: !Less(x, t.nome)
  {
    NameBagNames(t.esq);
    NameBagNames(t.dir);
    forall x | x in Names(t.esq) ensures Less(x, t.nome) {
      assert x in multiset(Names(t.esq));
    }
    forall x | x in Names(t.dir) ensures !Less(x, t.nome) {
      assert x in multiset(Names(t.dir));
    }
  }

  lemma {:induction false} SortedConcat(a: seq<string>, m: string, b: seq<string>)
    requires Sorted(a) && Sorted(b)
    requires forall x | x in a :: Less(x, m)
    requires forall x | x in b :: !Less(x, m)
    ensures Sorted(a + [m] + b)
  {
    var s := a + [m] + b;
    var l := |a|;
    forall i, j | 0 <= i < j < |s| ensures !Less(s[j], s[i]) {
      if j < l {
        assert s[i] == a[i] && s[j] == a[j];
      } else if i > l {
        assert s[i] == b[i - l - 1] && s[j] == b[j - l - 1];
      } else if i == l {
        assert s[i] == m && s[j] == b[j - l - 1];
      } else if j == l {
        assert s[i] == a[i] && s[j] == m;
        LessAsymmetric(s[i], m);
      } else {
        assert s[i] == a[i] && s[j] == b[j - l - 1];
        if Less(s[j], s[i]) {
          LessTransitive(s[j], s[i], m);
        }
      }
    }
  }

  /** The in-order names of a search tree are sorted. */
  lemma {:induction false} BstSorted(t: Tree)
    requires Bst(t)
    ensures Sorted(Names(t))
  {
    if t.Node? {
      BstSorted(t.esq);
      BstSorted(t.dir);
      BstNamesBounds(t);
      SortedConcat(Names(t.esq), t.nome, Names(t.dir));
    }
  }

  // ---------------- insertion (_inserir_bst) ----------------

  /** `_inserir_bst(r, n)`: left when `n.nome < r.nome`, otherwise right, duplicates included. */
  function Inserir(r: Tree, n: Tree): (t: Tree)
    requires n.Node?
    ensures t.Node?
    ensures NameBag(t) == NameBag(r) + NameBag(n)
    ensures WellFormed(r) && WellFormed(n) ==> WellFormed(t)
  {
    if r.Leaf? then n
    else if Less(n.nome, r.nome) then r.(esq := Inserir(r.esq, n))
    else r.(dir := Inserir(r.dir, n))
  }

  /** Reference: insert `x` into a name sequence before the first name greater than it. */
  function InsertSorted(s: seq<string>, x: string): (r: seq<string>)
  {
    if s == [] then [x]
    else if Less(x, s[0]) then [x] + s
    else [s[0]] + InsertSorted(s[1..], x)
  }

  lemma {:induction false} InsertSortedBefore(a: seq<string>, m: string, b: seq<string>, x: string)
    requires Less(x, m)
    ensures InsertSorted(a + [m] + b, x) == InsertSorted(a, x) + [m] + b
  {
    if a == [] {
      assert a + [m] + b == [m] + b;
    } else {
      assert (a + [m] + b)[0] == a[0];
      assert (a + [m] + b)[1..] == a[1..] + [m] + b;
      if !Less(x, a[0]) {
        InsertSortedBefore(a[1..], m, b, x);
      }
    }
  }

  lemma {:induction false} InsertSortedAfter(a: seq<string>, m: string, b: seq<string>, x: string)
    requires forall e | e in a :: !Less(x, e)
    requires !Less(x, m)
    ensures InsertSorted(a + [m] + b, x) == a + [m] + InsertSorted(b, x)
  {
    if a == [] {
      assert a + [m] + b == [m] + b;
      assert ([m] + b)[1..] == b;
    } else {
      assert (a + [m] + b)[0] == a[0];
      assert (a + [m] + b)[1..] == a[1..] + [m] + b;
      InsertSortedAfter(a[1..], m, b, x);
    }
  }

  /** Inserting a detached node keeps the search-tree order. */
  lemma {:induction false} InserirBst(r: Tree, n: Tree)
    requires Bst(r) && Detached(n)
    ensures Bst(Inserir(r, n))
  {
    if r.Node? {
      assert NameBag(n) == multiset{n.nome};
      if Less(n.nome, r.nome) {
        InserirBst(r.esq, n);
        var e := Inserir(r.esq, n);
        InserirBstLeft(r, n, e);
        assert Inserir(r, n) == r.(esq := e);
      } else {
        InserirBst(r.dir, n);
        var d := Inserir(r.dir, n);
        InserirBstRight(r, n, d);
        assert Inserir(r, n) == r.(dir := d);
      }
    }
  }

  lemma {:induction false} InserirBstLeft(r: Tree, n: Tree, e: Tree)
    requires r.Node? && n.Node? && Bst(r) && Bst(e) && Less(n.nome, r.nome)
    requires NameBag(e) == NameBag(r.esq) + multiset{n.nome}
    ensures Bst(r.(esq := e))
  {
  }

  lemma {:induction false} InserirBstRight(r: Tree, n: Tree, d: Tree)
    requires r.Node? && n.Node? && Bst(r) && Bst(d) && !Less(n.nome, r.nome)
    requires NameBag(d) == NameBag(r.dir) + multiset{n.nome}
    ensures Bst(r.(dir := d))
  {
  }

  /** On a search tree the in-order names after an insertion are the old ones with the
      new name in sorted position (after any equal names), one more than before. */
  lemma {:induction false} InserirInOrder(r: Tree, n: Tree)
    requires Bst(r) && Detached(n)
    ensures Names(Inserir(r, n)) == InsertSorted(Names(r), n.nome)
    ensures |Names(Inserir(r, n))| == |Names(r)| + 1
  {
    if r.Leaf? {
      assert Names(n) == [n.nome];
    } else if Less(n.nome, r.nome) {
      InserirInOrder(r.esq, n);
      BstNamesBounds(r);
      forall e | e in Names(r.dir) ensures Less(n.nome, e) {
        NotLessThenLess(e, r.nome, n.nome);
      }
      InsertSortedBefore(Names(r.esq), r.nome, Names(r.dir), n.nome);
    } else {
      InserirInOrder(r.dir, n);
      BstNamesBounds(r);
      forall e | e in Names(r.esq) ensures !Less(n.nome, e) {
        if Less(n.nome, e) {
          LessTransitive(n.nome, e, r.nome);
        }
      }
      InsertSortedAfter(Names(r.esq), r.nome, Names(r.dir), n.nome);
    }
  }

  // ---------------- lookup (_buscar_bst) ----------------

  /** The node `_buscar_bst(r, k)` stops at: the first node named `k` on the search path. */
  function Find(t: Tree, k: string): (r: Option<Tree>)
    ensures r.Some? ==> r.value.Node? && r.value.nome == k && k in NameBag(t)
    ensures r.Some? && WellFormed(t) ==> WellFormed(r.value)
    ensures r.Some? && Bst(t) ==> Bst(r.value)
  {
    match t
    case Leaf => None
    case Node(_, _, _, _, _, _, _) =>
      if k == t.nome then Some(t)
      else if Less(k, t.nome) then Find(t.esq, k)
      else Find(t.dir, k)
  }

  /** On a search tree the lookup misses only names that are absent. */
  lemma {:induction false} FindComplete(t: Tree, k: string)
    requires Bst(t)
    ensures Find(t, k).Some? <==> k in NameBag(t)
  {
    if t.Node? && k != t.nome {
      if Less(k, t.nome) {
        FindComplete(t.esq, k);
        assert k !in NameBag(t.dir);
      } else {
        FindComplete(t.dir, k);
        assert k !in NameBag(t.esq);
      }
    }
  }

  /** `_buscar_bst`: the iterative descent. */
  method BuscarBst(r: Tree, nome: string) returns (res: Option<Tree>)
    ensures res == Find(r, nome)
    ensures Bst(r) ==> (res.Some? <==> nome in NameBag(r))
  {
    var cur := r;
    while cur.Node?
      invariant Find(cur, nome) == Find(r, nome)
      decreases cur
    {
      if nome == cur.nome {
        if Bst(r) { FindComplete(r, nome); }
        return Some(cur);
      }
      cur := if Less(nome, cur.nome) then cur.esq else cur.dir;
    }
    if Bst(r) { FindComplete(r, nome); }
    return None;
  }

  /** Inserting a name the lookup misses makes the lookup find exactly the new node. */
  lemma {:induction false} FindInserir(r: Tree, n: Tree)
    requires n.Node? && Find(r, n.nome).None?
    ensures Find(Inserir(r, n), n.nome) == Some(n)
  {
    if r.Node? {
      if Less(n.nome, r.nome) {
        FindInserir(r.esq, n);
      } else {
        FindInserir(r.dir, n);
      }
    }
  }

  /** Inserting a leaf changes what the lookup finds for no other name. */
  lemma {:induction false} FindInserirOther(r: Tree, n: Tree, k: string)
    requires Detached(n) && k != n.nome
    ensures DadosOpt(Find(Inserir(r, n), k)) == DadosOpt(Find(r, k))
  {
    if r.Node? {
      if Less(n.nome, r.nome) {
        FindInserirOther(r.esq, n, k);
        FindEsqOther(r, Inserir(r.esq, n), k);
      } else {
        FindInserirOther(r.dir, n, k);
        FindDirOther(r, Inserir(r.dir, n), k);
      }
    }
  }

  /** Inserting a name the lookup already finds keeps it finding the same node: ties go
      right, below the node found. */
  lemma {:induction false} FindInserirFound(r: Tree, n: Tree)
    requires n.Node? && Find(r, n.nome).Some?
    ensures DadosOpt(Find(Inserir(r, n), n.nome)) == DadosOpt(Find(r, n.nome))
  {
    if n.nome == r.nome {
      LessIrreflexive(n.nome);
    } else if Less(n.nome, r.nome) {
      FindInserirFound(r.esq, n);
    } else {
      FindInserirFound(r.dir, n);
    }
  }

  /** Replacing the left subtree changes the lookup only for names searched there. */
  lemma FindEsqOther(t: Tree, e: Tree, k: string)
    requires t.Node?
    requires k != t.nome && Less(k, t.nome) ==> DadosOpt(Find(e, k)) == DadosOpt(Find(t.esq, k))
    ensures DadosOpt(Find(t.(esq := e), k)) == DadosOpt(Find(t, k))
  {
  }

  /** Replacing the right subtree changes the lookup only for names searched there. */
  lemma FindDirOther(t: Tree, d: Tree, k: string)
    requires t.Node?
    requires k != t.nome && !Less(k, t.nome) ==> DadosOpt(Find(d, k)) == DadosOpt(Find(t.dir, k))
    ensures DadosOpt(Find(t.(dir := d), k)) == DadosOpt(Find(t, k))
  {
  }

  // ---------------- deletion (_excluir_bst) ----------------

  /** The in-order successor search `m = r.dir; while m.esq: m = m.esq`. */
  function Leftmost(t: Tree): (m: Tree)
    requires t.Node?
    ensures m.Node? && m.esq == Leaf
    ensures WellFormed(t) ==> WellFormed(m)
  {
    if t.esq.Leaf? then t else Leftmost(t.esq)
  }

  /** The leftmost node of a search tree holds its least name. */
  lemma {:induction false} LeftmostMin(t: Tree)
    requires t.Node? && Bst(t)
    ensures Leftmost(t).nome in NameBag(t)
    ensures forall x | x in NameBag(t) :: !Less(x, Leftmost(t).nome)
  {
    var m := Leftmost(t).nome;
    if t.esq.Leaf? {
      LessIrreflexive(t.nome);
    } else {
      LeftmostMin(t.esq);
      assert Less(m, t.nome);
      LessAsymmetric(m, t.nome);
      forall x | x in NameBag(t.dir) ensures !Less(x, m) {
        if Less(x, m) {
          LessTransitive(x, m, t.nome);
        }
      }
    }
  }

  /** `_excluir_bst(r, k)` as a value: the new tree and the "removed" node. A node with
      two children takes the successor's payload in place and is itself returned. */
  function Remover(r: Tree, k: string): (res: (Tree, Option<Tree>))
    ensures res.1.Some? ==> res.1.value.Node?
  {
    match r
    case Leaf => (Leaf, None)
    case Node(_, _, _, _, _, _, _) =>
      if Less(k, r.nome) then
        var (e, rem) := Remover(r.esq, k);
        (r.(esq := e), rem)
      else if Less(r.nome, k) then
        var (d, rem) := Remover(r.dir, k);
        (r.(dir := d), rem)
      else if r.esq.Leaf? then (r.dir, Some(r))
      else if r.dir.Leaf? then (r.esq, Some(r))
      else
        var m := Leftmost(r.dir);
        var (d, _) := Remover(r.dir, m.nome);
        var n := Node(m.nome, m.tipo, m.tamanho, m.acessos, r.esq, d, m.filhos);
        (n, Some(n))
  }

  /** Deletion reports a removed node exactly when the lookup finds one, and leaves
      the tree as it was when it reports none. */
  lemma {:induction false} RemoverFind(t: Tree, k: string)
    ensures Remover(t, k).1.None? <==> Find(t, k).None?
    ensures Remover(t, k).1.None? ==> Remover(t, k).0 == t
  {
    if t.Node? {
      LessIrreflexive(k);
      LessTotal(k, t.nome);
      if Less(k, t.nome) {
        RemoverFind(t.esq, k);
      } else if Less(t.nome, k) {
        RemoverFind(t.dir, k);
      }
    }
  }

  /** Deletion keeps the search-tree order and takes exactly one occurrence of `k` out of
      the names (none when `k` is absent). */
  lemma {:induction false} RemoverOrdered(t: Tree, k: string)
    requires Bst(t)
    ensures Bst(Remover(t, k).0)
    ensures NameBag(Remover(t, k).0) == NameBag(t) - multiset{k}
  {
    if t.Node? {
      if Less(k, t.nome) {
        RemoverOrdered(t.esq, k);
        var e := Remover(t.esq, k).0;
        assert Remover(t, k).0 == t.(esq := e);
        RemoverLeftCase(t, k, e);
      } else if Less(t.nome, k) {
        RemoverOrdered(t.dir, k);
        var d := Remover(t.dir, k).0;
        assert Remover(t, k).0 == t.(dir := d);
        RemoverRightCase(t, k, d);
      } else {
        LessTotal(k, t.nome);
        if t.esq.Node? && t.dir.Node? {
          var m := Leftmost(t.dir);
          LeftmostMin(t.dir);
          RemoverOrdered(t.dir, m.nome);
          var d := Remover(t.dir, m.nome).0;
          assert Remover(t, k).0 == Node(m.nome, m.tipo, m.tamanho, m.acessos, t.esq, d, m.filhos);
          RemoverTwoChildCase(t, m, d);
        }
      }
    }
  }

  lemma {:induction false} RemoverLeftCase(t: Tree, k: string, e: Tree)
    requires t.Node? && Bst(t) && Less(k, t.nome) && Bst(e)
    requires NameBag(e) == NameBag(t.esq) - multiset{k}
    ensures Bst(t.(esq := e))
    ensures NameBag(t.(esq := e)) == NameBag(t) - multiset{k}
  {
    LessIrreflexive(k);
    assert k !in NameBag(t.dir);
    BagLeft(t, k, e);
  }

  lemma {:induction false} BagLeft(t: Tree, k: string, e: Tree)
    requires t.Node? && k !in NameBag(t.dir) && k != t.nome
    requires NameBag(e) == NameBag(t.esq) - multiset{k}
    ensures NameBag(t.(esq := e)) == NameBag(t) - multiset{k}
  {
    MultisetMinus(NameBag(t.esq), multiset{t.nome} + NameBag(t.dir), k);
  }

  lemma {:induction false} RemoverRightCase(t: Tree, k: string, d: Tree)
    requires t.Node? && Bst(t) && Less(t.nome, k) && Bst(d)
    requires NameBag(d) == NameBag(t.dir) - multiset{k}
    ensures Bst(t.(dir := d))
    ensures NameBag(t.(dir := d)) == NameBag(t) - multiset{k}
  {
    LessIrreflexive(k);
    assert k !in NameBag(t.esq) by {
      if k in NameBag(t.esq) {
        LessAsymmetric(k, t.nome);
      }
    }
    BagRight(t, k, d);
  }

  lemma {:induction false} BagRight(t: Tree, k: string, d: Tree)
    requires t.Node? && k !in NameBag(t.esq) && k != t.nome
    requires NameBag(d) == NameBag(t.dir) - multiset{k}
    ensures NameBag(t.(dir := d)) == NameBag(t) - multiset{k}
  {
    MultisetMinus(NameBag(t.dir), NameBag(t.esq) + multiset{t.nome}, k);
  }

  lemma {:induction false} RemoverTwoChildCase(t: Tree, m: Tree, d: Tree)
    requires t.Node? && t.dir.Node? && Bst(t) && m.Node? && Bst(d)
    requires m.nome in NameBag(t.dir) && forall x | x in NameBag(t.dir) :: !Less(x, m.nome)
    requires NameBag(d) == NameBag(t.dir) - multiset{m.nome}
    ensures Bst(Node(m.nome, m.tipo, m.tamanho, m.acessos, t.esq, d, m.filhos))
    ensures NameBag(Node(m.nome, m.tipo, m.tamanho, m.acessos, t.esq, d, m.filhos))
         == NameBag(t) - multiset{t.nome}
  {
    forall x | x in NameBag(t.esq) ensures Less(x, m.nome) {
      LessThenNotLess(x, t.nome, m.nome);
    }
    forall y | y in NameBag(d) ensures !Less(y, m.nome) {
    }
    BagTwoChild(t, m, d);
  }

  lemma {:induction false} BagTwoChild(t: Tree, m: Tree, d: Tree)
    requires t.Node? && m.Node? && m.nome in NameBag(t.dir)
    requires NameBag(d) == NameBag(t.dir) - multiset{m.nome}
    ensures NameBag(Node(m.nome, m.tipo, m.tamanho, m.acessos, t.esq, d, m.filhos))
         == NameBag(t) - multiset{t.nome}
  {
  }

  lemma MultisetMinus(a: multiset<string>, b: multiset<string>, k: string)
    requires k !in b
    ensures (a - multiset{k}) + b == (a + b) - multiset{k}
    ensures b + (a - multiset{k}) == (b + a) - multiset{k}
  {
  }

  /** The node handed back by deletion: the found node itself (links included) when it
      has at most one child; otherwise the found position refilled with the successor's
      name, kind, size, accesses and children. */
  lemma {:induction false} RemoverRemovido(t: Tree, k: string, f: Tree)
    requires Find(t, k) == Some(f)
    ensures f.esq.Leaf? || f.dir.Leaf? ==> Remover(t, k).1 == Some(f)
    ensures f.esq.Node? && f.dir.Node? ==>
      var m := Leftmost(f.dir);
      Remover(t, k).1 == Some(Node(m.nome, m.tipo, m.tamanho, m.acessos, f.esq, Remover(f.dir, m.nome).0, m.filhos))
  {
    LessIrreflexive(k);
    if k != t.nome {
      LessTotal(k, t.nome);
      if Less(k, t.nome) {
        RemoverRemovido(t.esq, k, f);
      } else {
        RemoverRemovido(t.dir, k, f);
      }
    }
  }

  /** Deletion keeps every directory well formed, the removed node's included. */
  lemma {:induction false} RemoverWellFormed(t: Tree, k: string)
    requires WellFormed(t)
    ensures WellFormed(Remover(t, k).0)
    ensures Remover(t, k).1.Some? ==> Remover(t, k).1.value.Node? && WellFormed(Remover(t, k).1.value)
  {
    if t.Node? {
      if Less(k, t.nome) {
        RemoverWellFormed(t.esq, k);
      } else if Less(t.nome, k) {
        RemoverWellFormed(t.dir, k);
      } else if t.esq.Node? && t.dir.Node? {
        RemoverWellFormed(t.dir, Leftmost(t.dir).nome);
      }
    }
  }

  /** Deleting a node without children changes what the lookup finds for no other name,
      up to sibling links. */
  lemma {:induction false} FindRemoverOther(t: Tree, k: string, f: Tree, k': string)
    requires Find(t, k) == Some(f) && Detached(f) && k' != k
    ensures DadosOpt(Find(Remover(t, k).0, k')) == DadosOpt(Find(t, k'))
  {
    LessIrreflexive(k);
    if k != t.nome {
      LessTotal(k, t.nome);
      if Less(k, t.nome) {
        FindRemoverOther(t.esq, k, f, k');
        assert Remover(t, k).0 == t.(esq := Remover(t.esq, k).0);
        FindEsqOther(t, Remover(t.esq, k).0, k');
      } else {
        FindRemoverOther(t.dir, k, f, k');
        assert Remover(t, k).0 == t.(dir := Remover(t.dir, k).0);
        FindDirOther(t, Remover(t.dir, k).0, k');
      }
    } else {
      assert f == t;
      assert Remover(t, k).0 == Leaf;
    }
  }

  /** In a search tree the lookup of the least name reaches the leftmost node. */
  lemma {:induction false} FindLeftmost(t: Tree)
    requires t.Node? && Bst(t)
    ensures Find(t, Leftmost(t).nome) == Some(Leftmost(t))
  {
    if t.esq.Node? {
      FindLeftmost(t.esq);
      LeftmostMin(t.esq);
      LessIrreflexive(t.nome);
    }
  }

  /** In a search tree, deleting a name changes what the lookup finds for no other
      name, up to sibling links, whichever of the three cases of `_excluir_bst` applies. */
  lemma {:induction false} FindRemoverOtherBst(t: Tree, k: string, k': string)
    requires Bst(t) && k' != k
    ensures DadosOpt(Find(Remover(t, k).0, k')) == DadosOpt(Find(t, k'))
    decreases t, 2
  {
    if t.Node? {
      LessTotal(k, t.nome);
      if Less(k, t.nome) {
        FindRemoverOtherBst(t.esq, k, k');
        assert Remover(t, k).0 == t.(esq := Remover(t.esq, k).0);
        FindEsqOther(t, Remover(t.esq, k).0, k');
      } else if Less(t.nome, k) {
        FindRemoverOtherBst(t.dir, k, k');
        assert Remover(t, k).0 == t.(dir := Remover(t.dir, k).0);
        FindDirOther(t, Remover(t.dir, k).0, k');
      } else {
        FindRemoverRaiz(t, k');
      }
    }
  }

  /** Deleting the root of a search tree keeps the lookup of every other name. */
  lemma {:induction false} FindRemoverRaiz(t: Tree, k': string)
    requires t.Node? && Bst(t) && k' != t.nome
    ensures DadosOpt(Find(Remover(t, t.nome).0, k')) == DadosOpt(Find(t, k'))
    decreases t, 1
  {
    LessIrreflexive(t.nome);
    LessTotal(k', t.nome);
    if t.esq.Leaf? {
      assert Remover(t, t.nome).0 == t.dir;
      if Less(k', t.nome) {
        assert k' !in NameBag(t.dir);
      }
    } else if t.dir.Leaf? {
      assert Remover(t, t.nome).0 == t.esq;
      if !Less(k', t.nome) {
        LessAsymmetric(t.nome, k');
        assert k' !in NameBag(t.esq);
      }
    } else {
      FindRemoverSucessor(t, k');
    }
  }

  /** Deleting a root with two children puts its successor in its place; the lookup
      of every other name is kept. */
  lemma {:induction false} FindRemoverSucessor(t: Tree, k': string)
    requires t.Node? && t.esq.Node? && t.dir.Node? && Bst(t) && k' != t.nome
    ensures DadosOpt(Find(Remover(t, t.nome).0, k')) == DadosOpt(Find(t, k'))
    decreases t, 0
  {
    LessIrreflexive(t.nome);
    var m := Leftmost(t.dir);
    var d := Remover(t.dir, m.nome).0;
    var n := Node(m.nome, m.tipo, m.tamanho, m.acessos, t.esq, d, m.filhos);
    assert Remover(t, t.nome).0 == n;
    LeftmostMin(t.dir);
    assert !Less(m.nome, t.nome);
    LessTotal(k', t.nome);
    LessTotal(k', m.nome);
    if k' == m.nome {
      FindLeftmost(t.dir);
    } else if Less(k', m.nome) {
      if !Less(k', t.nome) {
        LessAsymmetric(t.nome, k');
        assert k' !in NameBag(t.esq);
        assert k' !in NameBag(t.dir);
      }
    } else {
      FindRemoverOtherBst(t.dir, m.nome, k');
      if Less(k', t.nome) {
        LessTransitive(m.nome, k', t.nome);
      }
    }
  }

  /** `_excluir_bst` step by step, with the successor found by its while loop. */
  method ExcluirBst(r: Tree, nome: string) returns (t: Tree, removido: Option<Tree>)
    ensures (t, removido) == Remover(r, nome)
    decreases r
  {
    if r.Leaf? {
      return Leaf, None;
    }
    if Less(nome, r.nome) {
      var e, rem := ExcluirBst(r.esq, nome);
      return r.(esq := e), rem;
    }
    if Less(r.nome, nome) {
      var d, rem := ExcluirBst(r.dir, nome);
      return r.(dir := d), rem;
    }
    if r.esq.Leaf? {
      return r.dir, Some(r);
    }
    if r.dir.Leaf? {
      return r.esq, Some(r);
    }
    var m := r.dir;
    while m.esq.Node?
      invariant m.Node? && Leftmost(m) == Leftmost(r.dir)
      decreases m
    {
      m := m.esq;
    }
    var d, _ := ExcluirBst(r.dir, m.nome);
    var n := Node(m.nome, m.tipo, m.tamanho, m.acessos, r.esq, d, m.filhos);
    return n, Some(n);
  }

  // ---------------- in-place field updates ----------------

  /** Overwrites the fields of the node the lookup finds for `k` with those of `p`,
      keeping its sibling links: the effect of `n.acessos += 1` or `pai.filhos = ...`
      on a node reached through the tree. */
  function Substituir(t: Tree, k: string, p: Tree): (r: Tree)
    requires p.Node? && p.nome == k
    ensures Names(r) == Names(t) && NameBag(r) == NameBag(t)
    ensures Bst(t) ==> Bst(r)
    ensures WellFormed(t) && WellFormed(p.filhos) && Bst(p.filhos) ==> WellFormed(r)
  {
    match t
    case Leaf => Leaf
    case Node(_, _, _, _, _, _, _) =>
      if k == t.nome then p.(esq := t.esq, dir := t.dir)
      else if Less(k, t.nome) then t.(esq := Substituir(t.esq, k, p))
      else t.(dir := Substituir(t.dir, k, p))
  }

  /** The overwritten node is what the lookup then finds, with its old links. */
  lemma {:induction false} FindSubstituir(t: Tree, k: string, p: Tree, f: Tree)
    requires p.Node? && p.nome == k && Find(t, k) == Some(f)
    ensures Find(Substituir(t, k, p), k) == Some(p.(esq := f.esq, dir := f.dir))
  {
    if k != t.nome {
      if Less(k, t.nome) {
        FindSubstituir(t.esq, k, p, f);
      } else {
        FindSubstituir(t.dir, k, p, f);
      }
    }
  }

  /** Overwriting one node changes what the lookup finds for no other name. */
  lemma {:induction false} FindSubstituirOther(t: Tree, k: string, p: Tree, k': string)
    requires p.Node? && p.nome == k && k' != k
    ensures DadosOpt(Find(Substituir(t, k, p), k')) == DadosOpt(Find(t, k'))
  {
    if t.Node? {
      if k == t.nome {
        assert Substituir(t, k, p) == p.(esq := t.esq, dir := t.dir);
      } else if Less(k, t.nome) {
        FindSubstituirOther(t.esq, k, p, k');
        FindEsqOther(t, Substituir(t.esq, k, p), k');
      } else {
        FindSubstituirOther(t.dir, k, p, k');
        FindDirOther(t, Substituir(t.dir, k, p), k');
      }
    }
  }

  /** Overwriting the same node twice leaves only the second write. */
  lemma {:induction false} SubstituirTwice(t: Tree, k: string, p1: Tree, p2: Tree)
    requires p1.Node? && p1.nome == k && p2.Node? && p2.nome == k
    ensures Substituir(Substituir(t, k, p1), k, p2) == Substituir(t, k, p2)
  {
    if t.Node? && k != t.nome {
      if Less(k, t.nome) {
        SubstituirTwice(t.esq, k, p1, p2);
      } else {
        SubstituirTwice(t.dir, k, p1, p2);
      }
    }
  }

  /** Overwriting takes no sibling links from the new node. */
  lemma {:induction false} SubstituirLinks(t: Tree, k: string, p1: Tree, p2: Tree)
    requires p1.Node? && p2.Node? && p1.nome == k && Dados(p1) == Dados(p2)
    ensures Substituir(t, k, p1) == Substituir(t, k, p2)
  {
    if t.Node? && k != t.nome {
      if Less(k, t.nome) {
        SubstituirLinks(t.esq, k, p1, p2);
      } else {
        SubstituirLinks(t.dir, k, p1, p2);
      }
    }
  }

  /** Overwriting the found node with itself changes nothing. */
  lemma {:induction false} SubstituirSame(t: Tree, k: string, c: Tree)
    requires Find(t, k) == Some(c)
    ensures Substituir(t, k, c) == t
  {
    if k != t.nome {
      if Less(k, t.nome) {
        SubstituirSame(t.esq, k, c);
      } else {
        SubstituirSame(t.dir, k, c);
      }
    }
  }

  // ---------------- insertion and deletion undo each other ----------------

  /** Deleting a freshly inserted leaf under a name the lookup missed gives back the
      tree and reports that very node. */
  lemma {:induction false} RemoverInserir(r: Tree, n: Tree)
    requires Detached(n) && Find(r, n.nome).None?
    ensures Remover(Inserir(r, n), n.nome) == (r, Some(n))
  {
    LessIrreflexive(n.nome);
    if r.Node? {
      LessTotal(n.nome, r.nome);
      if Less(n.nome, r.nome) {
        RemoverInserir(r.esq, n);
      } else {
        RemoverInserir(r.dir, n);
      }
    }
  }

  /** Re-inserting a deleted leaf puts it back where it was. */
  lemma {:induction false} InserirRemover(t: Tree, k: string, f: Tree)
    requires Find(t, k) == Some(f) && Detached(f)
    ensures Inserir(Remover(t, k).0, f) == t
  {
    LessIrreflexive(k);
    LessTotal(k, t.nome);
    if k != t.nome {
      if Less(k, t.nome) {
        InserirRemover(t.esq, k, f);
      } else {
        InserirRemover(t.dir, k, f);
      }
    }
  }
}

=== FILE: caminho.dfy ===
/** Path resolution (`_navegar`) and the in-place `pai.filhos = ...` update of the
    directory a path leads to. */
module Caminho {
  import opened Texto
  import opened Arvore

  /** The segments `_navegar` walks: none for "/", else `caminho.strip("/").split("/")`. */
  function Segmentos(caminho: string): (segs: seq<string>)
    ensures caminho != "/" ==> |segs| >= 1
  {
    if caminho == "/" then [] else Split(Strip(caminho))
  }

  /** Walks `segs` from directory `d`, one children-tree lookup per segment; a missing
      segment or one naming a file ends the walk with None. */
  function Resolver(d: Tree, segs: seq<string>): (r: Option<Tree>)
    requires d.Node?
    decreases segs
    ensures r.Some? ==> r.value.Node?
    ensures r.Some? && segs != [] ==> r.value.tipo == Diretorio
    ensures r.Some? && WellFormed(d) ==> WellFormed(r.value)
  {
    if segs == [] then Some(d)
    else
      match Find(d.filhos, segs[0])
      case None => None
      case Some(c) => if c.tipo != Diretorio then None else Resolver(c, segs[1..])
  }

  /** `_navegar(caminho)` from the root. */
  function Navegar(raiz: Tree, caminho: string): Option<Tree>
    requires raiz.Node?
  {
    Resolver(raiz, Segmentos(caminho))
  }

  /** Walking `a + b` is walking `a`, then `b` from where `a` ended. */
  lemma {:induction false} ResolverConcat(d: Tree, a: seq<string>, b: seq<string>)
    requires d.Node?
    decreases a
    ensures Resolver(d, a + b) == match Resolver(d, a) case None => None case Some(x) => Resolver(x, b)
  {
    if a == [] {
      assert a + b == b;
    } else {
      assert (a + b)[0] == a[0] && (a + b)[1..] == a[1..] + b;
      match Find(d.filhos, a[0])
      case None =>
      case Some(c) =>
        if c.tipo == Diretorio {
          ResolverConcat(c, a[1..], b);
        }
    }
  }

  /** The walk fails exactly when some prefix of the path resolves to a directory in
      which the next segment is missing or names a file. */
  lemma ResolverFails(d: Tree, segs: seq<string>)
    requires d.Node?
    ensures Resolver(d, segs).None? <==>
      exists i | 0 <= i < |segs| :: StepFails(d, segs, i)
  {
    if Resolver(d, segs).None? {
      FailsAt(d, segs);
    } else {
      forall i | 0 <= i < |segs| ensures !StepFails(d, segs, i) {
        assert segs == segs[..i] + segs[i..];
        ResolverConcat(d, segs[..i], segs[i..]);
      }
    }
  }

  /** A walk that fails stops at some segment. */
  lemma {:induction false} FailsAt(d: Tree, segs: seq<string>)
    requires d.Node? && Resolver(d, segs).None?
    decreases segs
    ensures exists i | 0 <= i < |segs| :: StepFails(d, segs, i)
  {
    assert segs[..0] == [];
    var c := Find(d.filhos, segs[0]);
    if c.None? || c.value.tipo != Diretorio {
      assert StepFails(d, segs, 0);
    } else {
      FailsAt(c.value, segs[1..]);
      var j :| 0 <= j < |segs[1..]| && StepFails(c.value, segs[1..], j);
      FailsLater(d, segs, j);
    }
  }

  /** A stop inside the first child's walk is a stop of the whole walk, one segment on. */
  lemma FailsLater(d: Tree, segs: seq<string>, j: nat)
    requires d.Node? && segs != [] && Find(d.filhos, segs[0]).Some?
    requires Find(d.filhos, segs[0]).value.tipo == Diretorio
    requires j < |segs| - 1 && StepFails(Find(d.filhos, segs[0]).value, segs[1..], j)
    ensures StepFails(d, segs, j + 1)
  {
    assert segs[..j + 1] == [segs[0]] + segs[1..][..j];
    assert segs[1..][j] == segs[j + 1];
    ResolverConcat(d, [segs[0]], segs[1..][..j]);
  }

  /** Segment `i` of `segs` is where the walk from `d` stops. */
  ghost predicate StepFails(d: Tree, segs: seq<string>, i: nat)
    requires d.Node? && i < |segs|
  {
    match Resolver(d, segs[..i])
    case None => false
    case Some(x) =>
      match Find(x.filhos, segs[i])
      case None => true
      case Some(c) => c.tipo != Diretorio
  }

  /** `pai.filhos = f` for the directory `pai` that `segs` leads to, rebuilt as a value;
      nothing changes when `segs` does not resolve. */
  function SetFilhos(d: Tree, segs: seq<string>, f: Tree): (r: Tree)
    requires d.Node?
    decreases segs
    ensures r.Node? && r == d.(filhos := r.filhos)
    ensures Resolver(d, segs).None? ==> r == d
    ensures WellFormed(d) && WellFormed(f) && Bst(f) ==> WellFormed(r)
  {
    if segs == [] then d.(filhos := f)
    else
      match Find(d.filhos, segs[0])
      case None => d
      case Some(c) =>
        if c.tipo != Diretorio then d
        else
          var p := SetFilhos(c, segs[1..], f);
          SubstituirSame(d.filhos, segs[0], c);
          d.(filhos := Substituir(d.filhos, segs[0], p))
  }

  /** After the update the path leads to the same directory, now holding `f`. */
  lemma {:induction false} ResolverSetFilhos(d: Tree, segs: seq<string>, f: Tree)
    requires d.Node? && Resolver(d, segs).Some?
    decreases segs
    ensures Resolver(SetFilhos(d, segs, f), segs) == Some(Resolver(d, segs).value.(filhos := f))
  {
    if segs != [] {
      var c := Find(d.filhos, segs[0]).value;
      var p := SetFilhos(c, segs[1..], f);
      FindSubstituir(d.filhos, segs[0], p, c);
      ResolverSetFilhos(c, segs[1..], f);
    }
  }

  /** A second update of the same directory overrides the first. */
  lemma {:induction false} SetFilhosTwice(d: Tree, segs: seq<string>, f1: Tree, f2: Tree)
    requires d.Node?
    decreases segs
    ensures SetFilhos(SetFilhos(d, segs, f1), segs, f2) == SetFilhos(d, segs, f2)
  {
    if segs != [] {
      match Find(d.filhos, segs[0])
      case None =>
      case Some(c) =>
        if c.tipo == Diretorio {
          var p1 := SetFilhos(c, segs[1..], f1);
          var d1 := SetFilhos(d, segs, f1);
          assert d1 == d.(filhos := Substituir(d.filhos, segs[0], p1));
          FindSubstituir(d.filhos, segs[0], p1, c);
          var c1 := p1.(esq := c.esq, dir := c.dir);
          assert Find(d1.filhos, segs[0]) == Some(c1);
          SetFilhosTwice(c, segs[1..], f1, f2);
          SetFilhosLinks(c1, p1, segs[1..], f2);
          var q := SetFilhos(c1, segs[1..], f2);
          assert SetFilhos(d1, segs, f2) == d1.(filhos := Substituir(d1.filhos, segs[0], q));
          SubstituirTwice(d.filhos, segs[0], p1, q);
          SubstituirLinks(d.filhos, segs[0], q, SetFilhos(c, segs[1..], f2));
        }
    }
  }

  /** The update ignores and keeps the sibling links of the node it starts from. */
  lemma SetFilhosLinks(c1: Tree, c2: Tree, segs: seq<string>, f: Tree)
    requires c1.Node? && c2.Node? && Dados(c1) == Dados(c2)
    ensures Dados(SetFilhos(c1, segs, f)) == Dados(SetFilhos(c2, segs, f))
  {
    assert c1.filhos == c2.filhos;
    if segs != [] {
      assert c1 == c2.(esq := c1.esq, dir := c1.dir);
    }
  }

  /** Writing back the children a directory already has changes nothing. */
  lemma {:induction false} SetFilhosSame(d: Tree, segs: seq<string>)
    requires d.Node? && Resolver(d, segs).Some?
    decreases segs
    ensures SetFilhos(d, segs, Resolver(d, segs).value.filhos) == d
  {
    if segs != [] {
      var c := Find(d.filhos, segs[0]).value;
      SetFilhosSame(c, segs[1..]);
      SubstituirSame(d.filhos, segs[0], c);
    }
  }

  /** Two nodes with the same fields resolve the same paths, up to the links of the
      node reached. */
  lemma ResolverDados(c1: Tree, c2: Tree, segs: seq<string>)
    requires c1.Node? && c2.Node? && Dados(c1) == Dados(c2)
    ensures DadosOpt(Resolver(c1, segs)) == DadosOpt(Resolver(c2, segs))
  {
    assert c1.filhos == c2.filhos;
  }

  /** Neither path is a prefix of the other: they part at some segment. */
  predicate Separados(a: seq<string>, b: seq<string>)
  {
    !(a <= b) && !(b <= a)
  }

  /** The frame of `pai.filhos = f`: a directory whose path parts from `segs` keeps all
      its fields, its children included. */
  lemma {:induction false} ResolverFora(d: Tree, segs: seq<string>, f: Tree, alvo: seq<string>)
    requires d.Node? && Separados(segs, alvo)
    decreases alvo
    ensures DadosOpt(Resolver(SetFilhos(d, segs, f), alvo)) == DadosOpt(Resolver(d, alvo))
  {
    assert segs != [] && alvo != [];
    var r := SetFilhos(d, segs, f);
    match Find(d.filhos, segs[0])
    case None =>
    case Some(c) =>
      if c.tipo == Diretorio {
        var p := SetFilhos(c, segs[1..], f);
        assert r == d.(filhos := Substituir(d.filhos, segs[0], p));
        if segs[0] == alvo[0] {
          var c' := p.(esq := c.esq, dir := c.dir);
          FindSubstituir(d.filhos, segs[0], p, c);
          assert Resolver(r, alvo) == Resolver(c', alvo[1..]);
          assert Resolver(d, alvo) == Resolver(c, alvo[1..]);
          PrefixTail(segs, alvo);
          PrefixTail(alvo, segs);
          ResolverFora(c, segs[1..], f, alvo[1..]);
          ResolverDados(c', p, alvo[1..]);
        } else {
          FindSubstituirOther(d.filhos, segs[0], p, alvo[0]);
          match Find(d.filhos, alvo[0])
          case None =>
            assert Find(r.filhos, alvo[0]).None?;
          case Some(c2) =>
            var c2' := Find(r.filhos, alvo[0]).value;
            ResolverDados(c2', c2, alvo[1..]);
            if c2.tipo == Diretorio {
              assert Resolver(r, alvo) == Resolver(c2', alvo[1..]);
              assert Resolver(d, alvo) == Resolver(c2, alvo[1..]);
            }
        }
      }
  }

  /** A directory below `segs` keeps all its fields when the new children of `segs`
      agree with the old ones on the child the path enters. */
  lemma {:induction false} ResolverDentro(d: Tree, segs: seq<string>, rest: seq<string>, f: Tree)
    requires d.Node? && Resolver(d, segs).Some? && rest != []
    requires DadosOpt(Find(f, rest[0])) == DadosOpt(Find(Resolver(d, segs).value.filhos, rest[0]))
    decreases segs
    ensures DadosOpt(Resolver(SetFilhos(d, segs, f), segs + rest)) == DadosOpt(Resolver(d, segs + rest))
  {
    if segs == [] {
      assert segs + rest == rest;
      DentroAqui(d, f, rest);
    } else {
      var c := Find(d.filhos, segs[0]).value;
      var p := SetFilhos(c, segs[1..], f);
      var c' := p.(esq := c.esq, dir := c.dir);
      var r := SetFilhos(d, segs, f);
      assert r == d.(filhos := Substituir(d.filhos, segs[0], p));
      FindSubstituir(d.filhos, segs[0], p, c);
      var alvo := segs + rest;
      ConcatTail(segs, rest);
      assert Resolver(r, alvo) == Resolver(c', alvo[1..]);
      assert Resolver(d, alvo) == Resolver(c, alvo[1..]);
      assert Resolver(d, segs) == Resolver(c, segs[1..]);
      ResolverDentro(c, segs[1..], rest, f);
      ResolverDados(c', p, alvo[1..]);
    }
  }

  /** The first step of `ResolverDentro`: new children of `d` itself that agree with the
      old ones on the child `alvo` enters. */
  lemma DentroAqui(d: Tree, f: Tree, alvo: seq<string>)
    requires d.Node? && alvo != [] && DadosOpt(Find(f, alvo[0])) == DadosOpt(Find(d.filhos, alvo[0]))
    ensures DadosOpt(Resolver(d.(filhos := f), alvo)) == DadosOpt(Resolver(d, alvo))
  {
    match Find(d.filhos, alvo[0])
    case None =>
      assert Find(f, alvo[0]).None?;
    case Some(c) =>
      var c' := Find(f, alvo[0]).value;
      ResolverDados(c', c, alvo[1..]);
      if c.tipo == Diretorio {
        assert Resolver(d.(filhos := f), alvo) == Resolver(c', alvo[1..]);
        assert Resolver(d, alvo) == Resolver(c, alvo[1..]);
      }
  }

  /** A directory above `alvo + rest` keeps its fields except its children, whose names
      and search order stay as they were. */
  lemma {:induction false} ResolverAcima(d: Tree, alvo: seq<string>, rest: seq<string>, f: Tree)
    requires d.Node? && rest != [] && Resolver(d, alvo + rest).Some?
    decreases alvo
    ensures Resolver(d, alvo).Some? && Resolver(SetFilhos(d, alvo + rest, f), alvo).Some?
    ensures var a := Resolver(d, alvo).value;
      var a' := Resolver(SetFilhos(d, alvo + rest, f), alvo).value;
      Dados(a') == Dados(a).(filhos := a'.filhos)
      && NameBag(a'.filhos) == NameBag(a.filhos) && Names(a'.filhos) == Names(a.filhos)
      && (Bst(a.filhos) ==> Bst(a'.filhos))
  {
    var segs := alvo + rest;
    if alvo == [] {
      assert segs == rest;
      var c := Find(d.filhos, segs[0]).value;
      var p := SetFilhos(c, segs[1..], f);
      assert SetFilhos(d, segs, f) == d.(filhos := Substituir(d.filhos, segs[0], p));
    } else {
      ConcatTail(alvo, rest);
      var c := Find(d.filhos, alvo[0]).value;
      var p := SetFilhos(c, segs[1..], f);
      var c' := p.(esq := c.esq, dir := c.dir);
      var r := SetFilhos(d, segs, f);
      assert r == d.(filhos := Substituir(d.filhos, segs[0], p));
      FindSubstituir(d.filhos, segs[0], p, c);
      assert Resolver(d, segs) == Resolver(c, segs[1..]);
      assert Resolver(r, alvo) == Resolver(c', alvo[1..]);
      assert Resolver(d, alvo) == Resolver(c, alvo[1..]);
      ResolverAcima(c, alvo[1..], rest, f);
      ResolverDados(c', p, alvo[1..]);
    }
  }

  /** Replacing the children of directory `segs` by a tree on which every lookup except
      that of `nome` finds the same node keeps every path resolvable that does not pass
      through `segs + [nome]`. */
  lemma {:induction false} ResolverOutside(d: Tree, segs: seq<string>, nome: string, f: Tree, alvo: seq<string>)
    requires d.Node? && Resolver(d, segs).Some? && Resolver(d, alvo).Some?
    requires !(segs + [nome] <= alvo)
    requires forall k | k != nome :: DadosOpt(Find(f, k)) == DadosOpt(Find(Resolver(d, segs).value.filhos, k))
    decreases alvo
    ensures Resolver(SetFilhos(d, segs, f), alvo).Some?
  {
    if alvo != [] {
      if segs == [] {
        assert alvo[0] != nome by {
          assert [nome] <= alvo <==> alvo[0] == nome;
        }
        OutsideHere(d, nome, f, alvo);
      } else if segs[0] == alvo[0] {
        var c := Find(d.filhos, alvo[0]).value;
        assert Resolver(d, segs) == Resolver(c, segs[1..]);
        PrefixTail(segs + [nome], alvo);
        assert (segs + [nome])[1..] == segs[1..] + [nome];
        ResolverOutside(c, segs[1..], nome, f, alvo[1..]);
        OutsideSame(d, segs, f, alvo);
      } else {
        OutsideOther(d, segs, f, alvo);
      }
    }
  }

  /** The children of a directory other than `segs` keep their names when the new
      children of `segs` agree with the old ones on the child a path below it enters. */
  lemma ResolverOutro(d: Tree, segs: seq<string>, f: Tree, alvo: seq<string>)
    requires d.Node? && Resolver(d, segs).Some? && Resolver(d, alvo).Some? && segs != alvo
    requires segs < alvo ==>
      DadosOpt(Find(f, alvo[|segs|])) == DadosOpt(Find(Resolver(d, segs).value.filhos, alvo[|segs|]))
    ensures Resolver(SetFilhos(d, segs, f), alvo).Some?
    ensures var a := Resolver(d, alvo).value;
      var a' := Resolver(SetFilhos(d, segs, f), alvo).value;
      Dados(a') == Dados(a).(filhos := a'.filhos) && NameBag(a'.filhos) == NameBag(a.filhos)
  {
    if Separados(segs, alvo) {
      ResolverFora(d, segs, f, alvo);
    } else if segs <= alvo {
      var rest := alvo[|segs|..];
      assert alvo == segs + rest && rest[0] == alvo[|segs|];
      ResolverDentro(d, segs, rest, f);
    } else {
      var rest := segs[|alvo|..];
      assert segs == alvo + rest;
      ResolverAcima(d, alvo, rest, f);
    }
  }

  /** A path that resolves enters, below each of its proper prefixes, a child that the
      lookup finds. */
  lemma ResolverEntra(d: Tree, segs: seq<string>, alvo: seq<string>)
    requires d.Node? && segs < alvo && Resolver(d, alvo).Some?
    ensures Resolver(d, segs).Some? && Find(Resolver(d, segs).value.filhos, alvo[|segs|]).Some?
  {
    assert alvo == segs + alvo[|segs|..];
    ResolverConcat(d, segs, alvo[|segs|..]);
    assert alvo[|segs|..][0] == alvo[|segs|];
  }

  /** Sequences that start alike and are not prefix-related stay so without their heads. */
  lemma PrefixTail<T>(a: seq<T>, b: seq<T>)
    requires a != [] && b != [] && a[0] == b[0] && !(a <= b)
    ensures !(a[1..] <= b[1..])
  {
  }

  /** The head and the tail of a concatenation with a non-empty front. */
  lemma ConcatTail<T>(a: seq<T>, b: seq<T>)
    requires a != []
    ensures (a + b)[0] == a[0] && (a + b)[1..] == a[1..] + b
  {
  }

  /** A proper prefix `a` of `b` that `a + [x]` is not a prefix of is followed in `b`
      by something other than `x`. */
  lemma PrefixNext<T>(a: seq<T>, b: seq<T>, x: T)
    requires a <= b && |a| < |b| && !(a + [x] <= b)
    ensures b[|a|] != x
  {
    assert b[..|a| + 1] == a + [b[|a|]];
  }

  /** The replaced children are those of `d` itself and `alvo` leaves through another name. */
  lemma OutsideHere(d: Tree, nome: string, f: Tree, alvo: seq<string>)
    requires d.Node? && alvo != [] && alvo[0] != nome && Resolver(d, alvo).Some?
    requires DadosOpt(Find(f, alvo[0])) == DadosOpt(Find(d.filhos, alvo[0]))
    ensures Resolver(SetFilhos(d, [], f), alvo).Some?
  {
    var c := Find(d.filhos, alvo[0]).value;
    var c' := Find(f, alvo[0]).value;
    ResolverDados(c', c, alvo[1..]);
  }

  /** `alvo` and `segs` enter the same child: the walk continues inside the update. */
  lemma OutsideSame(d: Tree, segs: seq<string>, f: Tree, alvo: seq<string>)
    requires d.Node? && alvo != [] && segs != [] && segs[0] == alvo[0] && Resolver(d, alvo).Some?
    requires Resolver(SetFilhos(Find(d.filhos, alvo[0]).value, segs[1..], f), alvo[1..]).Some?
    ensures Resolver(SetFilhos(d, segs, f), alvo).Some?
  {
    var c := Find(d.filhos, alvo[0]).value;
    FindSubstituir(d.filhos, alvo[0], SetFilhos(c, segs[1..], f), c);
  }

  /** `alvo` leaves through a child other than the one `segs` enters. */
  lemma OutsideOther(d: Tree, segs: seq<string>, f: Tree, alvo: seq<string>)
    requires d.Node? && alvo != [] && segs != [] && segs[0] != alvo[0]
    requires Resolver(d, segs).Some? && Resolver(d, alvo).Some?
    ensures Resolver(SetFilhos(d, segs, f), alvo).Some?
  {
    var c0 := Find(d.filhos, segs[0]).value;
    FindSubstituirOther(d.filhos, segs[0], SetFilhos(c0, segs[1..], f), alvo[0]);
    var c := Find(d.filhos, alvo[0]).value;
    var c' := Find(SetFilhos(d, segs, f).filhos, alvo[0]).value;
    ResolverDados(c', c, alvo[1..]);
  }
}

=== FILE: listagem.dfy ===
/** `listar` and `_listar_recursivo`: every node under a directory, in the order the
    recursion visits them, with the full path it builds for each. */
module Listagem {
  import opened Texto
  import opened Arvore
  import opened Caminho

  /** One listed pair `(caminho_completo, tipo)`. */
  datatype Item = Item(caminho: string, tipo: Kind)

  /** `f"{atual}/{nome}".replace("//", "/")` */
  function CaminhoCompleto(atual: string, nome: string): string
  {
    CollapseSlashes(atual + "/" + nome)
  }

  /** Joining a path that has no "//" and does not end in "/" with a name free of "/"
      needs no collapsing. */
  lemma CaminhoCompletoLimpo(atual: string, nome: string)
    requires NoDoubleSlash(atual) && (atual == [] || atual[|atual| - 1] != '/') && '/' !in nome
    ensures CaminhoCompleto(atual, nome) == atual + "/" + nome
  {
    var s := atual + "/" + nome;
    forall i | 0 <= i < |s| - 1 ensures !(s[i] == '/' && s[i + 1] == '/') {
      if i < |atual| - 1 {
        assert s[i] == atual[i] && s[i + 1] == atual[i + 1];
      } else if i == |atual| - 1 {
        assert s[i] == atual[i];
      } else {
        assert s[i + 1] == nome[i - |atual|];
      }
    }
    CollapseSlashesIdentity(s);
  }

  /** The pairs `_listar_recursivo(node, atual, res)` appends to `res`: the left subtree,
      the node, the node's own children when it is a directory that has some, then the
      right subtree. */
  function Listagem(t: Tree, atual: string): seq<Item>
    decreases t, 1
  {
    match t
    case Leaf => []
    case Node(_, _, _, _, _, _, _) =>
      Listagem(t.esq, atual) + Bloco(t, atual) + Listagem(t.dir, atual)
  }

  /** The pairs one node contributes: itself, followed at once by its own children. */
  function Bloco(x: Tree, atual: string): (b: seq<Item>)
    requires x.Node?
    ensures |b| >= 1 && b[0] == Item(CaminhoCompleto(atual, x.nome), x.tipo)
    decreases x, 0
  {
    var c := CaminhoCompleto(atual, x.nome);
    [Item(c, x.tipo)] + (if x.tipo == Diretorio && x.filhos.Node? then Listagem(x.filhos, c) else [])
  }

  /** `listar(caminho)`: nothing for a path that does not resolve. */
  function Listar(raiz: Tree, caminho: string): seq<Item>
    requires raiz.Node?
  {
    match Navegar(raiz, caminho)
    case None => []
    case Some(pai) => Listagem(pai.filhos, RStrip(caminho))
  }

  /** The nodes of one directory's tree in in-order. */
  function Nos(t: Tree): (s: seq<Tree>)
    ensures forall i | 0 <= i < |s| :: s[i].Node?
    ensures |s| == |Names(t)| && forall i | 0 <= i < |s| :: s[i].nome == Names(t)[i]
  {
    match t
    case Leaf => []
    case Node(_, _, _, _, _, _, _) => Nos(t.esq) + [t] + Nos(t.dir)
  }

  /** The blocks of a sequence of nodes, one after the other. */
  function Blocos(s: seq<Tree>, atual: string): seq<Item>
    requires forall i | 0 <= i < |s| :: s[i].Node?
  {
    if s == [] then [] else Bloco(s[0], atual) + Blocos(s[1..], atual)
  }

  lemma {:induction false} BlocosConcat(a: seq<Tree>, b: seq<Tree>, atual: string)
    requires forall i | 0 <= i < |a| :: a[i].Node?
    requires forall i | 0 <= i < |b| :: b[i].Node?
    ensures Blocos(a + b, atual) == Blocos(a, atual) + Blocos(b, atual)
  {
    if a == [] {
      assert a + b == b;
    } else {
      assert (a + b)[1..] == a[1..] + b;
      BlocosConcat(a[1..], b, atual);
    }
  }

  /** The listing of a directory's tree is the block of each of its nodes in in-order;
      on a search tree that is ascending name order. */
  lemma {:induction false} ListagemEmOrdem(t: Tree, atual: string)
    ensures Listagem(t, atual) == Blocos(Nos(t), atual)
    ensures Bst(t) ==> Sorted(Names(t))
  {
    if t.Node? {
      ListagemEmOrdem(t.esq, atual);
      ListagemEmOrdem(t.dir, atual);
      BlocosConcat(Nos(t.esq), [t], atual);
      BlocosConcat(Nos(t.esq) + [t], Nos(t.dir), atual);
      assert Blocos([t], atual) == Bloco(t, atual);
    }
    if Bst(t) {
      BstSorted(t);
    }
  }

  /** Every node of a directory's tree is listed, with its full path and its kind. */
  lemma {:induction false} ListagemCompleta(t: Tree, atual: string)
    ensures forall x | x in Nos(t) :: Item(CaminhoCompleto(atual, x.nome), x.tipo) in Listagem(t, atual)
  {
    if t.Node? {
      ListagemCompleta(t.esq, atual);
      ListagemCompleta(t.dir, atual);
      var l := Listagem(t, atual);
      assert l == Listagem(t.esq, atual) + Bloco(t, atual) + Listagem(t.dir, atual);
      assert Bloco(t, atual)[0] in l;
      forall x | x in Nos(t) ensures Item(CaminhoCompleto(atual, x.nome), x.tipo) in l {
        if x in Nos(t.esq) {
        } else if x != t {
          assert x in Nos(t.dir);
        }
      }
    }
  }

  /** The listing has at least one pair per node of the directory's tree. */
  lemma {:induction false} ListagemTamanho(t: Tree, atual: string)
    ensures |Listagem(t, atual)| >= |Names(t)|
  {
    if t.Node? {
      ListagemTamanho(t.esq, atual);
      ListagemTamanho(t.dir, atual);
    }
  }
}

=== FILE: operacoes.dfy ===
/** The operations of `SistemaArquivos` (`criar`, `excluir`, `renomear`, `mover`,
    `acessar`, `desfazer`) as transitions on its three fields: the root directory,
    the relevance heap and the undo stack. */
module Operacoes {
  import opened Texto
  import opened Arvore
  import opened Caminho
  import opened Ranking

  /** An undo record, one alternative per tuple tag the program pushes. */
  datatype Acao =
    | AcaoExcluir(caminho: string, nome: string)            // ("excluir", caminho, nome)
    | AcaoCriar(caminho: string, no: Tree)                  // ("criar", caminho, removido)
    | AcaoRenomear(caminho: string, atual: string, antigo: string)
    | AcaoMover(destino: string, nome: string, origem: string)

  /** The fields `raiz`, `heap` and `undo`; the heap is kept as the multiset of its entries. */
  datatype Estado = Estado(raiz: Tree, heap: multiset<Entrada>, undo: seq<Acao>)

  /** The state after a boolean operation and the boolean it returns. */
  datatype Passo = Passo(estado: Estado, ok: bool)

  /** How `desfazer` ends: True, False, or the AttributeError of a "criar" record whose
      directory no longer resolves. */
  datatype Desfecho = Desfeito | NadaParaDesfazer | Erro

  datatype Desfazimento = Desfazimento(estado: Estado, desfecho: Desfecho)

  /** What every reachable state satisfies: the root is the directory "/", every
      directory's children form a search tree, and every stored node is well formed. */
  ghost predicate Valido(e: Estado)
  {
    e.raiz.Node? && e.raiz.nome == "/" && e.raiz.tipo == Diretorio && WellFormed(e.raiz)
    && forall i | 0 <= i < |e.undo| :: e.undo[i].AcaoCriar? ==> e.undo[i].no.Node? && WellFormed(e.undo[i].no)
  }

  /** The state `__init__` builds before loading: an empty root, heap and undo stack. */
  function Inicial(): (e: Estado)
    ensures Valido(e) && e.raiz.filhos == Leaf && e.heap == multiset{} && e.undo == []
  {
    Estado(NovoNo("/", Diretorio, 0), multiset{}, [])
  }

  /** The child `nome` of directory `caminho`, when both exist. */
  function Alvo(raiz: Tree, caminho: string, nome: string): Option<Tree>
    requires raiz.Node?
  {
    match Navegar(raiz, caminho)
    case None => None
    case Some(pai) => Find(pai.filhos, nome)
  }

  /** Taking `nome` out of directory `caminho` hands back a node without sibling links,
      so putting it in again does not share or loop nodes. */
  predicate Seguro(raiz: Tree, caminho: string, nome: string)
    requires raiz.Node?
  {
    Alvo(raiz, caminho, nome).Some? ==> Detached(Alvo(raiz, caminho, nome).value)
  }

  /** `mover` neither aliases the moved node nor moves a directory into itself. */
  predicate MoverSeguro(raiz: Tree, origem: string, nome: string, destino: string)
    requires raiz.Node?
  {
    Seguro(raiz, origem, nome)
    && (Alvo(raiz, origem, nome).Some? && Navegar(raiz, destino).Some? ==>
          !(Segmentos(origem) + [nome] <= Segmentos(destino)))
  }

  /** Replaying an undo record is covered by the preconditions above. */
  predicate RepetirSeguro(raiz: Tree, a: Acao)
    requires raiz.Node?
  {
    match a
    case AcaoExcluir(_, _) => true
    case AcaoCriar(_, no) => Detached(no)
    case AcaoRenomear(c, atual, _) => Seguro(raiz, c, atual)
    case AcaoMover(d, n, o) => MoverSeguro(raiz, d, n, o)
  }

  /** Replaying the top undo record is covered by the preconditions above. */
  predicate DesfazerSeguro(e: Estado)
    requires e.raiz.Node?
  {
    e.undo != [] ==> RepetirSeguro(e.raiz, e.undo[|e.undo| - 1])
  }

  // ---------------- criar ----------------

  /** `criar(caminho, nome, tipo, tamanho)` */
  function Criar(e: Estado, caminho: string, nome: string, tipo: Kind, tamanho: int): (r: Passo)
    requires e.raiz.Node?
    ensures r.ok <==> Navegar(e.raiz, caminho).Some? && Alvo(e.raiz, caminho, nome).None?
    ensures !r.ok ==> r.estado == e
    ensures r.ok ==> r.estado.heap == e.heap && r.estado.undo == e.undo + [AcaoExcluir(caminho, nome)]
  {
    match Navegar(e.raiz, caminho)
    case None => Passo(e, false)
    case Some(pai) =>
      if Find(pai.filhos, nome).Some? then Passo(e, false)
      else
        var novo := NovoNo(nome, tipo, tamanho);
        Passo(e.(raiz := SetFilhos(e.raiz, Segmentos(caminho), Inserir(pai.filhos, novo)),
                 undo := e.undo + [AcaoExcluir(caminho, nome)]), true)
  }

  /** After a successful `criar` the directory finds the new node, with no accesses and no
      children, holds one more name, and finds every other name as before. */
  lemma CriarEfeito(e: Estado, caminho: string, nome: string, tipo: Kind, tamanho: int)
    requires e.raiz.Node? && Criar(e, caminho, nome, tipo, tamanho).ok
    ensures var pai := Navegar(e.raiz, caminho).value;
      var raiz' := Criar(e, caminho, nome, tipo, tamanho).estado.raiz;
      Navegar(raiz', caminho).Some?
      && var pai' := Navegar(raiz', caminho).value;
      Find(pai'.filhos, nome) == Some(Node(nome, tipo, tamanho, 0, Leaf, Leaf, Leaf))
      && NameBag(pai'.filhos) == NameBag(pai.filhos) + multiset{nome}
      && forall k | k != nome :: DadosOpt(Find(pai'.filhos, k)) == DadosOpt(Find(pai.filhos, k))
  {
    var pai := Navegar(e.raiz, caminho).value;
    var novo := NovoNo(nome, tipo, tamanho);
    var ins := Inserir(pai.filhos, novo);
    var raiz' := SetFilhos(e.raiz, Segmentos(caminho), ins);
    assert Criar(e, caminho, nome, tipo, tamanho).estado.raiz == raiz';
    ResolverSetFilhos(e.raiz, Segmentos(caminho), ins);
    assert Navegar(raiz', caminho) == Some(pai.(filhos := ins));
    FindInserir(pai.filhos, novo);
    assert NameBag(novo) == multiset{nome};
    forall k | k != nome ensures DadosOpt(Find(ins, k)) == DadosOpt(Find(pai.filhos, k)) {
      FindInserirOther(pai.filhos, novo, k);
    }
  }

  lemma CriarValido(e: Estado, caminho: string, nome: string, tipo: Kind, tamanho: int)
    requires Valido(e)
    ensures Valido(Criar(e, caminho, nome, tipo, tamanho).estado)
  {
    var r := Criar(e, caminho, nome, tipo, tamanho);
    if r.ok {
      var pai := Navegar(e.raiz, caminho).value;
      var novo := NovoNo(nome, tipo, tamanho);
      assert WellFormed(novo);
      InserirBst(pai.filhos, novo);
      var ins := Inserir(pai.filhos, novo);
      assert WellFormed(ins) && Bst(ins);
      assert r.estado.raiz == SetFilhos(e.raiz, Segmentos(caminho), ins);
      ValidoComRaiz(e, r.estado);
    }
  }

  /** `criar` in `caminho` leaves every directory whose path parts from it as it was. */
  lemma CriarFora(e: Estado, caminho: string, nome: string, tipo: Kind, tamanho: int, alvo: string)
    requires e.raiz.Node? && Separados(Segmentos(caminho), Segmentos(alvo))
    ensures var raiz' := Criar(e, caminho, nome, tipo, tamanho).estado.raiz;
      raiz'.Node? && DadosOpt(Navegar(raiz', alvo)) == DadosOpt(Navegar(e.raiz, alvo))
  {
    if Criar(e, caminho, nome, tipo, tamanho).ok {
      var pai := Navegar(e.raiz, caminho).value;
      ResolverFora(e.raiz, Segmentos(caminho), Inserir(pai.filhos, NovoNo(nome, tipo, tamanho)), Segmentos(alvo));
    }
  }

  /** A state that differs from a valid one in a well-formed root and in records other
      than node-carrying ones is valid. */
  lemma ValidoComRaiz(e: Estado, e': Estado)
    requires Valido(e) && e'.raiz.Node? && e'.raiz.nome == "/" && e'.raiz.tipo == Diretorio && WellFormed(e'.raiz)
    requires e'.undo == e.undo || (|e'.undo| == |e.undo| + 1 && e'.undo[..|e.undo|] == e.undo && !e'.undo[|e.undo|].AcaoCriar?)
    ensures Valido(e')
  {
    if e'.undo != e.undo {
      forall i | 0 <= i < |e.undo| ensures e'.undo[i] == e.undo[i] {
        assert e'.undo[i] == e'.undo[..|e.undo|][i];
      }
    }
  }

  // ---------------- excluir ----------------

  /** `excluir(caminho, nome)` */
  function Excluir(e: Estado, caminho: string, nome: string): (r: Passo)
    requires e.raiz.Node?
    ensures r.ok <==> Alvo(e.raiz, caminho, nome).Some?
    ensures !r.ok ==> r.estado == e
    ensures r.estado.heap == e.heap
  {
    match Navegar(e.raiz, caminho)
    case None => Passo(e, false)
    case Some(pai) =>
      var segs := Segmentos(caminho);
      var (f, removido) := Remover(pai.filhos, nome);
      var raiz := SetFilhos(e.raiz, segs, f);
      RemoverFind(pai.filhos, nome);
      match removido
      case None =>
        SetFilhosSame(e.raiz, segs);
        Passo(e.(raiz := raiz), false)
      case Some(no) =>
        Passo(e.(raiz := raiz, undo := e.undo + [AcaoCriar(caminho, no)]), true)
  }

  /** After a successful `excluir` on a valid state the directory holds one occurrence of
      `nome` less, is still a search tree and finds every other name as before; the record
      keeps the found node when it had an empty side, and otherwise the node that took its
      in-order successor's fields. */
  lemma ExcluirEfeito(e: Estado, caminho: string, nome: string)
    requires Valido(e) && Excluir(e, caminho, nome).ok
    ensures var pai := Navegar(e.raiz, caminho).value;
      var x := Find(pai.filhos, nome).value;
      var e' := Excluir(e, caminho, nome).estado;
      Navegar(e'.raiz, caminho).Some?
      && var pai' := Navegar(e'.raiz, caminho).value;
      NameBag(pai'.filhos) == NameBag(pai.filhos) - multiset{nome}
      && Bst(pai'.filhos)
      && |e'.undo| == |e.undo| + 1 && e'.undo[..|e.undo|] == e.undo
      && e'.undo[|e.undo|].AcaoCriar? && e'.undo[|e.undo|].caminho == caminho
      && (x.esq.Leaf? || x.dir.Leaf? ==> e'.undo[|e.undo|].no == x)
      && (x.esq.Node? && x.dir.Node? ==> e'.undo[|e.undo|].no.nome == Leftmost(x.dir).nome)
      && forall k | k != nome :: DadosOpt(Find(pai'.filhos, k)) == DadosOpt(Find(pai.filhos, k))
  {
    var pai := Navegar(e.raiz, caminho).value;
    var x := Find(pai.filhos, nome).value;
    var f := Remover(pai.filhos, nome).0;
    ResolverSetFilhos(e.raiz, Segmentos(caminho), f);
    RemoverOrdered(pai.filhos, nome);
    RemoverRemovido(pai.filhos, nome, x);
    var e' := Excluir(e, caminho, nome).estado;
    assert e'.undo[..|e.undo|] == e.undo;
    forall k | k != nome ensures DadosOpt(Find(f, k)) == DadosOpt(Find(pai.filhos, k)) {
      FindRemoverOtherBst(pai.filhos, nome, k);
    }
  }

  lemma ExcluirValido(e: Estado, caminho: string, nome: string)
    requires Valido(e)
    ensures Valido(Excluir(e, caminho, nome).estado)
  {
    var r := Excluir(e, caminho, nome);
    if r.ok {
      var pai := Navegar(e.raiz, caminho).value;
      RemoverOrdered(pai.filhos, nome);
      RemoverWellFormed(pai.filhos, nome);
      var e' := r.estado;
      forall i | 0 <= i < |e'.undo| && e'.undo[i].AcaoCriar? ensures e'.undo[i].no.Node? && WellFormed(e'.undo[i].no) {
        if i < |e.undo| {
          assert e'.undo[i] == e.undo[i];
        }
      }
    }
  }

  /** `excluir` in `caminho` leaves every directory whose path parts from it as it was. */
  lemma ExcluirFora(e: Estado, caminho: string, nome: string, alvo: string)
    requires e.raiz.Node? && Separados(Segmentos(caminho), Segmentos(alvo))
    ensures var raiz' := Excluir(e, caminho, nome).estado.raiz;
      raiz'.Node? && DadosOpt(Navegar(raiz', alvo)) == DadosOpt(Navegar(e.raiz, alvo))
  {
    if Excluir(e, caminho, nome).ok {
      var pai := Navegar(e.raiz, caminho).value;
      ResolverFora(e.raiz, Segmentos(caminho), Remover(pai.filhos, nome).0, Segmentos(alvo));
    }
  }

  // ---------------- renomear ----------------

  /** `renomear(caminho, antigo, novo)`: take the node out, rename it, put it back. */
  function Renomear(e: Estado, caminho: string, antigo: string, novo: string): (r: Passo)
    requires e.raiz.Node? && Seguro(e.raiz, caminho, antigo)
    ensures r.ok <==> Alvo(e.raiz, caminho, antigo).Some?
    ensures !r.ok ==> r.estado == e
    ensures r.ok ==> r.estado.heap == e.heap && r.estado.undo == e.undo + [AcaoRenomear(caminho, novo, antigo)]
  {
    match Navegar(e.raiz, caminho)
    case None => Passo(e, false)
    case Some(pai) =>
      var segs := Segmentos(caminho);
      var (f, removido) := Remover(pai.filhos, antigo);
      var raiz1 := SetFilhos(e.raiz, segs, f);
      RemoverFind(pai.filhos, antigo);
      match removido
      case None =>
        SetFilhosSame(e.raiz, segs);
        Passo(e.(raiz := raiz1), false)
      case Some(no) =>
        var raiz2 := SetFilhos(raiz1, segs, Inserir(f, no.(nome := novo)));
        Passo(e.(raiz := raiz2, undo := e.undo + [AcaoRenomear(caminho, novo, antigo)]), true)
  }

  /** A successful `renomear` of a node without sibling links writes back the directory's
      tree without that node, plus the node under its new name. */
  lemma RenomearRaiz(e: Estado, caminho: string, antigo: string, novo: string)
    requires e.raiz.Node? && Seguro(e.raiz, caminho, antigo) && Renomear(e, caminho, antigo, novo).ok
    ensures var t := Navegar(e.raiz, caminho).value.filhos;
      var x := Find(t, antigo).value;
      Remover(t, antigo) == (Remover(t, antigo).0, Some(x))
      && Renomear(e, caminho, antigo, novo).estado.raiz
         == SetFilhos(e.raiz, Segmentos(caminho), Inserir(Remover(t, antigo).0, x.(nome := novo)))
  {
    var t := Navegar(e.raiz, caminho).value.filhos;
    var x := Find(t, antigo).value;
    var f := Remover(t, antigo).0;
    RemoverRemovido(t, antigo, x);
    SetFilhosTwice(e.raiz, Segmentos(caminho), f, Inserir(f, x.(nome := novo)));
  }

  /** Only unfolds `Renomear` into its two writes (the directory's tree without the node,
      then that tree with the renamed node), so that `SistemaArquivos.Renomear` verifies. */
  lemma RenomearPassos(e: Estado, caminho: string, antigo: string, novo: string, pai: Tree, f: Tree, no: Tree)
    requires Valido(e) && Seguro(e.raiz, caminho, antigo)
    requires Navegar(e.raiz, caminho) == Some(pai) && Remover(pai.filhos, antigo) == (f, Some(no))
    ensures var segs := Segmentos(caminho);
      var e' := Estado(SetFilhos(SetFilhos(e.raiz, segs, f), segs, Inserir(f, no.(nome := novo))),
                       e.heap, e.undo + [AcaoRenomear(caminho, novo, antigo)]);
      Renomear(e, caminho, antigo, novo) == Passo(e', true) && Valido(e')
  {
    RenomearValido(e, caminho, antigo, novo);
  }

  /** After a successful `renomear` on a valid state the directory has traded one `antigo`
      for one `novo`, is still a search tree, finds every third name as before, and when
      `novo` was free it finds the renamed node with every other field kept. */
  lemma RenomearEfeito(e: Estado, caminho: string, antigo: string, novo: string)
    requires Valido(e) && Seguro(e.raiz, caminho, antigo) && Renomear(e, caminho, antigo, novo).ok
    ensures var pai := Navegar(e.raiz, caminho).value;
      var x := Find(pai.filhos, antigo).value;
      var raiz' := Renomear(e, caminho, antigo, novo).estado.raiz;
      Navegar(raiz', caminho).Some?
      && var pai' := Navegar(raiz', caminho).value;
      NameBag(pai'.filhos) == NameBag(pai.filhos) - multiset{antigo} + multiset{novo}
      && Bst(pai'.filhos)
      && (Find(pai.filhos, novo).None? ==> Find(pai'.filhos, novo) == Some(x.(nome := novo)))
      && forall k | k != antigo && k != novo :: DadosOpt(Find(pai'.filhos, k)) == DadosOpt(Find(pai.filhos, k))
  {
    var pai := Navegar(e.raiz, caminho).value;
    var t := pai.filhos;
    var x := Find(t, antigo).value;
    var x' := x.(nome := novo);
    var segs := Segmentos(caminho);
    var f := Remover(t, antigo).0;
    var ins := Inserir(f, x');
    RenomearRaiz(e, caminho, antigo, novo);
    var raiz' := SetFilhos(e.raiz, segs, ins);
    ResolverSetFilhos(e.raiz, segs, ins);
    assert Navegar(raiz', caminho) == Some(pai.(filhos := ins));
    assert Bst(t);
    RemoverOrdered(t, antigo);
    InserirBst(f, x');
    assert NameBag(x') == multiset{novo};
    if Find(t, novo).None? {
      FindRemoverOther(t, antigo, x, novo);
      FindInserir(f, x');
    }
    forall k | k != antigo && k != novo ensures DadosOpt(Find(ins, k)) == DadosOpt(Find(t, k)) {
      FindInserirOther(f, x', k);
      FindRemoverOtherBst(t, antigo, k);
    }
  }

  lemma RenomearValido(e: Estado, caminho: string, antigo: string, novo: string)
    requires Valido(e) && Seguro(e.raiz, caminho, antigo)
    ensures Valido(Renomear(e, caminho, antigo, novo).estado)
  {
    var r := Renomear(e, caminho, antigo, novo);
    if r.ok {
      var t := Navegar(e.raiz, caminho).value.filhos;
      var x := Find(t, antigo).value;
      var f := Remover(t, antigo).0;
      RenomearRaiz(e, caminho, antigo, novo);
      RemoverOrdered(t, antigo);
      RemoverWellFormed(t, antigo);
      InserirBst(f, x.(nome := novo));
      ValidoComRaiz(e, r.estado);
    }
  }

  /** `renomear` in `caminho` leaves every directory whose path parts from it as it was. */
  lemma RenomearFora(e: Estado, caminho: string, antigo: string, novo: string, alvo: string)
    requires e.raiz.Node? && Seguro(e.raiz, caminho, antigo) && Separados(Segmentos(caminho), Segmentos(alvo))
    ensures var raiz' := Renomear(e, caminho, antigo, novo).estado.raiz;
      raiz'.Node? && DadosOpt(Navegar(raiz', alvo)) == DadosOpt(Navegar(e.raiz, alvo))
  {
    if Renomear(e, caminho, antigo, novo).ok {
      var t := Navegar(e.raiz, caminho).value.filhos;
      var x := Find(t, antigo).value;
      var f := Remover(t, antigo).0;
      RenomearRaiz(e, caminho, antigo, novo);
      ResolverFora(e.raiz, Segmentos(caminho), Inserir(f, x.(nome := novo)), Segmentos(alvo));
    }
  }

  // ---------------- mover ----------------

  /** Taking a leaf out of `origem` leaves `destino` resolvable when it does not lead
      into the moved node. */
  lemma DestinoPermanece(raiz: Tree, origem: string, nome: string, destino: string)
    requires raiz.Node? && MoverSeguro(raiz, origem, nome, destino)
    requires Alvo(raiz, origem, nome).Some? && Navegar(raiz, destino).Some?
    ensures var po := Navegar(raiz, origem).value;
      Navegar(SetFilhos(raiz, Segmentos(origem), Remover(po.filhos, nome).0), destino).Some?
  {
    var po := Navegar(raiz, origem).value;
    var x := Find(po.filhos, nome).value;
    var f := Remover(po.filhos, nome).0;
    forall k | k != nome ensures DadosOpt(Find(f, k)) == DadosOpt(Find(po.filhos, k)) {
      FindRemoverOther(po.filhos, nome, x, k);
    }
    ResolverOutside(raiz, Segmentos(origem), nome, f, Segmentos(destino));
  }

  /** `mover(origem, nome, destino)`. The destination directory is looked up again after
      the removal, which reaches the directory the program looked up before it. */
  function Mover(e: Estado, origem: string, nome: string, destino: string): (r: Passo)
    requires e.raiz.Node? && MoverSeguro(e.raiz, origem, nome, destino)
    ensures r.ok <==> Navegar(e.raiz, destino).Some? && Alvo(e.raiz, origem, nome).Some?
    ensures !r.ok ==> r.estado == e
    ensures r.ok ==> r.estado.heap == e.heap && r.estado.undo == e.undo + [AcaoMover(destino, nome, origem)]
  {
    match Navegar(e.raiz, origem)
    case None => Passo(e, false)
    case Some(po) =>
      if Navegar(e.raiz, destino).None? then Passo(e, false)
      else
        var so := Segmentos(origem);
        var (f, removido) := Remover(po.filhos, nome);
        var raiz1 := SetFilhos(e.raiz, so, f);
        RemoverFind(po.filhos, nome);
        match removido
        case None =>
          SetFilhosSame(e.raiz, so);
          Passo(e.(raiz := raiz1), false)
        case Some(no) =>
          DestinoPermanece(e.raiz, origem, nome, destino);
          var pd := Navegar(raiz1, destino).value;
          var raiz2 := SetFilhos(raiz1, Segmentos(destino), Inserir(pd.filhos, no));
          Passo(e.(raiz := raiz2, undo := e.undo + [AcaoMover(destino, nome, origem)]), true)
  }

  /** A successful `mover` of a node without sibling links: the node found in `origem`
      leaves it and is inserted into the tree of `destino`, looked up after the removal. */
  lemma MoverRaiz(e: Estado, origem: string, nome: string, destino: string)
    requires e.raiz.Node? && MoverSeguro(e.raiz, origem, nome, destino) && Mover(e, origem, nome, destino).ok
    ensures var t := Navegar(e.raiz, origem).value.filhos;
      var x := Find(t, nome).value;
      var raiz1 := SetFilhos(e.raiz, Segmentos(origem), Remover(t, nome).0);
      Remover(t, nome) == (Remover(t, nome).0, Some(x))
      && Navegar(raiz1, destino).Some?
      && Mover(e, origem, nome, destino).estado.raiz
         == SetFilhos(raiz1, Segmentos(destino), Inserir(Navegar(raiz1, destino).value.filhos, x))
  {
    var t := Navegar(e.raiz, origem).value.filhos;
    var x := Find(t, nome).value;
    RemoverRemovido(t, nome, x);
    DestinoPermanece(e.raiz, origem, nome, destino);
  }

  lemma MoverValido(e: Estado, origem: string, nome: string, destino: string)
    requires Valido(e) && MoverSeguro(e.raiz, origem, nome, destino)
    ensures Valido(Mover(e, origem, nome, destino).estado)
  {
    var r := Mover(e, origem, nome, destino);
    if r.ok {
      var t := Navegar(e.raiz, origem).value.filhos;
      var x := Find(t, nome).value;
      var f := Remover(t, nome).0;
      MoverRaiz(e, origem, nome, destino);
      RemoverOrdered(t, nome);
      RemoverWellFormed(t, nome);
      var raiz1 := SetFilhos(e.raiz, Segmentos(origem), f);
      assert WellFormed(raiz1);
      var pd := Navegar(raiz1, destino).value;
      assert WellFormed(pd);
      InserirBst(pd.filhos, x);
      ValidoComRaiz(e, r.estado);
    }
  }

  /** `mover` leaves every directory whose path parts from both `origem` and `destino`
      as it was. */
  lemma MoverFora(e: Estado, origem: string, nome: string, destino: string, alvo: string)
    requires e.raiz.Node? && MoverSeguro(e.raiz, origem, nome, destino)
    requires Separados(Segmentos(origem), Segmentos(alvo)) && Separados(Segmentos(destino), Segmentos(alvo))
    ensures var raiz' := Mover(e, origem, nome, destino).estado.raiz;
      raiz'.Node? && DadosOpt(Navegar(raiz', alvo)) == DadosOpt(Navegar(e.raiz, alvo))
  {
    if Mover(e, origem, nome, destino).ok {
      var t := Navegar(e.raiz, origem).value.filhos;
      var x := Find(t, nome).value;
      var raiz1 := SetFilhos(e.raiz, Segmentos(origem), Remover(t, nome).0);
      MoverRaiz(e, origem, nome, destino);
      var pd1 := Navegar(raiz1, destino).value;
      ResolverFora(e.raiz, Segmentos(origem), Remover(t, nome).0, Segmentos(alvo));
      ResolverFora(raiz1, Segmentos(destino), Inserir(pd1.filhos, x), Segmentos(alvo));
    }
  }

  /** Once the node has left `origem`, looking `destino` up again reaches the directory
      the program looked up before the removal: every field but the children is the
      same, and the children hold the same names unless `destino` is `origem` itself. */
  lemma MoverDestino(raiz: Tree, origem: string, nome: string, destino: string)
    requires raiz.Node? && MoverSeguro(raiz, origem, nome, destino)
    requires Alvo(raiz, origem, nome).Some? && Navegar(raiz, destino).Some?
    ensures var po := Navegar(raiz, origem).value;
      var raiz1 := SetFilhos(raiz, Segmentos(origem), Remover(po.filhos, nome).0);
      Navegar(raiz1, destino).Some?
      && var pd := Navegar(raiz, destino).value;
      var pd1 := Navegar(raiz1, destino).value;
      Dados(pd1) == Dados(pd).(filhos := pd1.filhos)
      && (Segmentos(origem) != Segmentos(destino) ==> NameBag(pd1.filhos) == NameBag(pd.filhos))
  {
    var so := Segmentos(origem);
    var sd := Segmentos(destino);
    var t := Navegar(raiz, origem).value.filhos;
    var x := Find(t, nome).value;
    var f := Remover(t, nome).0;
    DestinoPermanece(raiz, origem, nome, destino);
    if so == sd {
      ResolverSetFilhos(raiz, so, f);
    } else {
      if so < sd {
        PrefixNext(so, sd, nome);
        FindRemoverOther(t, nome, x, sd[|so|]);
      }
      ResolverOutro(raiz, so, f, sd);
    }
  }

  /** Once the node is in `destino`, the origin's children are its tree without the node,
      up to the order of the search tree, and its other fields are as they were. */
  lemma MoverOrigem(raiz: Tree, origem: string, nome: string, destino: string)
    requires raiz.Node? && MoverSeguro(raiz, origem, nome, destino)
    requires Alvo(raiz, origem, nome).Some? && Navegar(raiz, destino).Some?
    requires Segmentos(origem) != Segmentos(destino)
    ensures var t := Navegar(raiz, origem).value.filhos;
      var raiz1 := SetFilhos(raiz, Segmentos(origem), Remover(t, nome).0);
      Navegar(raiz1, destino).Some?
      && var raiz2 := SetFilhos(raiz1, Segmentos(destino), Inserir(Navegar(raiz1, destino).value.filhos, Find(t, nome).value));
      Navegar(raiz2, origem).Some?
      && var po2 := Navegar(raiz2, origem).value;
      NameBag(po2.filhos) == NameBag(Remover(t, nome).0)
      && Dados(po2) == Dados(Navegar(raiz, origem).value).(filhos := po2.filhos)
  {
    var so := Segmentos(origem);
    var sd := Segmentos(destino);
    var po := Navegar(raiz, origem).value;
    var t := po.filhos;
    var x := Find(t, nome).value;
    var f := Remover(t, nome).0;
    var raiz1 := SetFilhos(raiz, so, f);
    ResolverSetFilhos(raiz, so, f);
    assert Resolver(raiz1, so) == Some(po.(filhos := f));
    DestinoPermanece(raiz, origem, nome, destino);
    var pd1 := Navegar(raiz1, destino).value;
    var ins := Inserir(pd1.filhos, x);
    if sd < so {
      ResolverEntra(raiz1, sd, so);
      if so[|sd|] == nome {
        FindInserirFound(pd1.filhos, x);
      } else {
        FindInserirOther(pd1.filhos, x, so[|sd|]);
      }
    }
    ResolverOutro(raiz1, sd, ins, so);
  }

  /** After a successful `mover` between two different directories on a valid state the
      origin holds one occurrence of `nome` less and the destination one more, both are
      still search trees, and when `nome` was free in the destination it finds the moved
      node there. Neither directory changes a field other than its children; when neither
      lies on the other's path, each also finds every other name as before. */
  lemma MoverEfeito(e: Estado, origem: string, nome: string, destino: string)
    requires Valido(e) && MoverSeguro(e.raiz, origem, nome, destino) && Mover(e, origem, nome, destino).ok
    requires Segmentos(origem) != Segmentos(destino)
    ensures var po := Navegar(e.raiz, origem).value;
      var pd := Navegar(e.raiz, destino).value;
      var x := Find(po.filhos, nome).value;
      var raiz' := Mover(e, origem, nome, destino).estado.raiz;
      Navegar(raiz', origem).Some? && Navegar(raiz', destino).Some?
      && var po' := Navegar(raiz', origem).value;
      var pd' := Navegar(raiz', destino).value;
      NameBag(po'.filhos) == NameBag(po.filhos) - multiset{nome} && Bst(po'.filhos)
      && NameBag(pd'.filhos) == NameBag(pd.filhos) + multiset{nome} && Bst(pd'.filhos)
      && (Find(pd.filhos, nome).None? ==> Find(pd'.filhos, nome) == Some(x))
      && Dados(po') == Dados(po).(filhos := po'.filhos) && Dados(pd') == Dados(pd).(filhos := pd'.filhos)
      && (Separados(Segmentos(origem), Segmentos(destino)) ==>
            (forall k | k != nome :: DadosOpt(Find(po'.filhos, k)) == DadosOpt(Find(po.filhos, k)))
            && (forall k | k != nome :: DadosOpt(Find(pd'.filhos, k)) == DadosOpt(Find(pd.filhos, k))))
  {
    var so := Segmentos(origem);
    var sd := Segmentos(destino);
    var po := Navegar(e.raiz, origem).value;
    var pd := Navegar(e.raiz, destino).value;
    var t := po.filhos;
    var x := Find(t, nome).value;
    var f := Remover(t, nome).0;
    var raiz1 := SetFilhos(e.raiz, so, f);
    MoverRaiz(e, origem, nome, destino);
    MoverDestino(e.raiz, origem, nome, destino);
    MoverOrigem(e.raiz, origem, nome, destino);
    MoverValido(e, origem, nome, destino);
    RemoverOrdered(t, nome);
    RemoverWellFormed(t, nome);
    var pd1 := Navegar(raiz1, destino).value;
    var ins := Inserir(pd1.filhos, x);
    var raiz2 := SetFilhos(raiz1, sd, ins);
    assert Mover(e, origem, nome, destino).estado.raiz == raiz2;
    ResolverSetFilhos(raiz1, sd, ins);
    assert Navegar(raiz2, destino) == Some(pd1.(filhos := ins));
    assert WellFormed(raiz1);
    assert WellFormed(pd1);
    InserirBst(pd1.filhos, x);
    assert NameBag(x) == multiset{nome};
    if Find(pd.filhos, nome).None? {
      FindComplete(pd.filhos, nome);
      FindInserir(pd1.filhos, x);
    }
    if Separados(so, sd) {
      MoverSeparado(e.raiz, origem, nome, destino);
    }
  }

  /** When neither directory lies on the other's path, `mover` changes what each of them
      finds only for `nome`. */
  lemma MoverSeparado(raiz: Tree, origem: string, nome: string, destino: string)
    requires raiz.Node? && MoverSeguro(raiz, origem, nome, destino)
    requires Alvo(raiz, origem, nome).Some? && Navegar(raiz, destino).Some?
    requires Separados(Segmentos(origem), Segmentos(destino))
    ensures var t := Navegar(raiz, origem).value.filhos;
      var raiz1 := SetFilhos(raiz, Segmentos(origem), Remover(t, nome).0);
      Navegar(raiz1, destino).Some?
      && var raiz2 := SetFilhos(raiz1, Segmentos(destino), Inserir(Navegar(raiz1, destino).value.filhos, Find(t, nome).value));
      Navegar(raiz2, origem).Some? && Navegar(raiz2, destino).Some?
      && (forall k | k != nome ::
            DadosOpt(Find(Navegar(raiz2, origem).value.filhos, k)) == DadosOpt(Find(t, k)))
      && (forall k | k != nome ::
            DadosOpt(Find(Navegar(raiz2, destino).value.filhos, k))
            == DadosOpt(Find(Navegar(raiz, destino).value.filhos, k)))
  {
    var so := Segmentos(origem);
    var sd := Segmentos(destino);
    var po := Navegar(raiz, origem).value;
    var t := po.filhos;
    var x := Find(t, nome).value;
    var f := Remover(t, nome).0;
    var raiz1 := SetFilhos(raiz, so, f);
    ResolverSetFilhos(raiz, so, f);
    ResolverFora(raiz, so, f, sd);
    var pd1 := Navegar(raiz1, destino).value;
    assert pd1.filhos == Navegar(raiz, destino).value.filhos;
    var ins := Inserir(pd1.filhos, x);
    var raiz2 := SetFilhos(raiz1, sd, ins);
    ResolverSetFilhos(raiz1, sd, ins);
    ResolverFora(raiz1, sd, ins, so);
    assert Navegar(raiz2, origem).value.filhos == f;
    forall k | k != nome ensures DadosOpt(Find(f, k)) == DadosOpt(Find(t, k)) {
      FindRemoverOther(t, nome, x, k);
    }
    forall k | k != nome ensures DadosOpt(Find(ins, k)) == DadosOpt(Find(pd1.filhos, k)) {
      FindInserirOther(pd1.filhos, x, k);
    }
  }

  // ---------------- acessar ----------------

  /** `n.acessos += 1` */
  function Acessado(n: Tree): (n': Tree)
    requires n.Node?
    ensures n'.Node? && n'.acessos == n.acessos + 1 && n' == n.(acessos := n'.acessos)
  {
    n.(acessos := n.acessos + 1)
  }

  /** The tuple `(-n.acessos, -n.tamanho, n.nome, n.tipo)` pushed on the heap. */
  function Registro(n: Tree): (x: Entrada)
    requires n.Node?
    ensures x.acessosNeg == -n.acessos && x.tamanhoNeg == -n.tamanho && x.nome == n.nome && x.tipo == n.tipo
  {
    Entrada(-n.acessos, -n.tamanho, n.nome, n.tipo)
  }

  /** `acessar(caminho, nome)`: one more access, and its snapshot pushed on the heap. */
  function Acessar(e: Estado, caminho: string, nome: string): (r: Passo)
    requires e.raiz.Node?
    ensures r.ok <==> Alvo(e.raiz, caminho, nome).Some?
    ensures !r.ok ==> r.estado == e
    ensures r.estado.undo == e.undo
    ensures r.ok ==> r.estado.heap == e.heap + multiset{Registro(Acessado(Alvo(e.raiz, caminho, nome).value))}
  {
    match Navegar(e.raiz, caminho)
    case None => Passo(e, false)
    case Some(pai) =>
      match Find(pai.filhos, nome)
      case None => Passo(e, false)
      case Some(n) =>
        var n' := Acessado(n);
        Passo(e.(raiz := SetFilhos(e.raiz, Segmentos(caminho), Substituir(pai.filhos, nome, n')),
                 heap := e.heap + multiset{Registro(n')}), true)
  }

  /** After a successful `acessar` the directory finds the node with exactly one more
      access and every other field kept, and finds every other name as before. */
  lemma AcessarEfeito(e: Estado, caminho: string, nome: string)
    requires e.raiz.Node? && Acessar(e, caminho, nome).ok
    ensures var pai := Navegar(e.raiz, caminho).value;
      var n := Find(pai.filhos, nome).value;
      var raiz' := Acessar(e, caminho, nome).estado.raiz;
      Navegar(raiz', caminho).Some?
      && var pai' := Navegar(raiz', caminho).value;
      Find(pai'.filhos, nome) == Some(n.(acessos := n.acessos + 1))
      && NameBag(pai'.filhos) == NameBag(pai.filhos)
      && forall k | k != nome :: DadosOpt(Find(pai'.filhos, k)) == DadosOpt(Find(pai.filhos, k))
  {
    var pai := Navegar(e.raiz, caminho).value;
    var n := Find(pai.filhos, nome).value;
    var n' := Acessado(n);
    var sub := Substituir(pai.filhos, nome, n');
    var raiz' := SetFilhos(e.raiz, Segmentos(caminho), sub);
    assert Acessar(e, caminho, nome).estado.raiz == raiz';
    ResolverSetFilhos(e.raiz, Segmentos(caminho), sub);
    assert Navegar(raiz', caminho) == Some(pai.(filhos := sub));
    FindSubstituir(pai.filhos, nome, n', n);
    forall k | k != nome ensures DadosOpt(Find(sub, k)) == DadosOpt(Find(pai.filhos, k)) {
      FindSubstituirOther(pai.filhos, nome, n', k);
    }
  }

  lemma AcessarValido(e: Estado, caminho: string, nome: string)
    requires Valido(e)
    ensures Valido(Acessar(e, caminho, nome).estado)
  {
    var r := Acessar(e, caminho, nome);
    if r.ok {
      ValidoComRaiz(e, r.estado);
    }
  }

  /** `acessar` in `caminho` leaves every directory whose path parts from it as it was. */
  lemma AcessarFora(e: Estado, caminho: string, nome: string, alvo: string)
    requires e.raiz.Node? && Separados(Segmentos(caminho), Segmentos(alvo))
    ensures var raiz' := Acessar(e, caminho, nome).estado.raiz;
      raiz'.Node? && DadosOpt(Navegar(raiz', alvo)) == DadosOpt(Navegar(e.raiz, alvo))
  {
    if Acessar(e, caminho, nome).ok {
      var pai := Navegar(e.raiz, caminho).value;
      var n := Find(pai.filhos, nome).value;
      ResolverFora(e.raiz, Segmentos(caminho), Substituir(pai.filhos, nome, Acessado(n)), Segmentos(alvo));
    }
  }

  // ---------------- desfazer ----------------

  /** The inverse operation an undo record stands for, applied to `e`: the program's
      own `excluir`, `renomear` and `mover`, or putting the deleted node back. */
  function Repetir(e: Estado, a: Acao): (r: Desfazimento)
    requires e.raiz.Node? && RepetirSeguro(e.raiz, a)
    ensures r.desfecho != NadaParaDesfazer
    ensures r.desfecho == Erro <==> a.AcaoCriar? && Navegar(e.raiz, a.caminho).None?
    ensures r.desfecho == Erro ==> r.estado == e
    ensures r.estado.heap == e.heap
    ensures |e.undo| <= |r.estado.undo| <= |e.undo| + 1 && r.estado.undo[..|e.undo|] == e.undo
    ensures a.AcaoCriar? ==> r.estado.undo == e.undo
  {
    match a
    case AcaoExcluir(c, n) => Desfazimento(Excluir(e, c, n).estado, Desfeito)
    case AcaoCriar(c, no) =>
      (match Navegar(e.raiz, c)
       case None => Desfazimento(e, Erro)
       case Some(pai) => Desfazimento(e.(raiz := SetFilhos(e.raiz, Segmentos(c), Inserir(pai.filhos, no))), Desfeito))
    case AcaoRenomear(c, atual, antigo) => Desfazimento(Renomear(e, c, atual, antigo).estado, Desfeito)
    case AcaoMover(d, n, o) => Desfazimento(Mover(e, d, n, o).estado, Desfeito)
  }

  /** `desfazer()`: pop the top record and replay its inverse. The older records stay;
      a replayed `excluir`, `renomear` or `mover` pushes its own record when it succeeds,
      and putting a deleted node back pushes none. */
  function Desfazer(e: Estado): (r: Desfazimento)
    requires e.raiz.Node? && DesfazerSeguro(e)
    ensures r.desfecho == NadaParaDesfazer <==> e.undo == []
    ensures r.desfecho == NadaParaDesfazer ==> r.estado == e
    ensures r.desfecho == Erro <==>
      e.undo != [] && e.undo[|e.undo| - 1].AcaoCriar? && Navegar(e.raiz, e.undo[|e.undo| - 1].caminho).None?
    ensures r.estado.heap == e.heap
    ensures e.undo != [] ==> var n := |e.undo| - 1;
      n <= |r.estado.undo| <= n + 1 && r.estado.undo[..n] == e.undo[..n]
      && (e.undo[n].AcaoCriar? ==> r.estado.undo == e.undo[..n])
      && (r.desfecho == Erro ==> r.estado == e.(undo := e.undo[..n]))
  {
    if e.undo == [] then Desfazimento(e, NadaParaDesfazer)
    else Repetir(e.(undo := e.undo[..|e.undo| - 1]), e.undo[|e.undo| - 1])
  }

  /** Replaying a record whose node, if any, is well formed keeps a state valid. */
  lemma RepetirValido(e: Estado, a: Acao)
    requires Valido(e) && RepetirSeguro(e.raiz, a)
    requires a.AcaoCriar? ==> a.no.Node? && WellFormed(a.no)
    ensures Valido(Repetir(e, a).estado)
  {
    match a
    case AcaoExcluir(c, n) => ExcluirValido(e, c, n);
    case AcaoCriar(c, no) =>
      if Navegar(e.raiz, c).Some? {
        ReinserirValido(e, c, no);
      }
    case AcaoRenomear(c, atual, antigo) => RenomearValido(e, c, atual, antigo);
    case AcaoMover(d, n, o) => MoverValido(e, d, n, o);
  }

  lemma DesfazerValido(e: Estado)
    requires Valido(e) && DesfazerSeguro(e)
    ensures Valido(Desfazer(e).estado)
  {
    if e.undo != [] {
      PopValido(e);
      RepetirValido(e.(undo := e.undo[..|e.undo| - 1]), e.undo[|e.undo| - 1]);
    }
  }

  /** Putting a well-formed node back into a directory of a valid state gives a valid state. */
  lemma ReinserirValido(e: Estado, c: string, no: Tree)
    requires Valido(e) && no.Node? && WellFormed(no) && Detached(no) && Navegar(e.raiz, c).Some?
    ensures var pai := Navegar(e.raiz, c).value;
      Valido(e.(raiz := SetFilhos(e.raiz, Segmentos(c), Inserir(pai.filhos, no))))
  {
    var pai := Navegar(e.raiz, c).value;
    InserirBst(pai.filhos, no);
    ValidoComRaiz(e, e.(raiz := SetFilhos(e.raiz, Segmentos(c), Inserir(pai.filhos, no))));
  }

  /** Popping the top record keeps a state valid. */
  lemma PopValido(e: Estado)
    requires Valido(e) && e.undo != []
    ensures Valido(e.(undo := e.undo[..|e.undo| - 1]))
  {
    var e1 := e.(undo := e.undo[..|e.undo| - 1]);
    forall i | 0 <= i < |e1.undo| ensures e1.undo[i] == e.undo[i] {
    }
  }

  /** Undoing a `criar` deletes the new node again: the tree is back as it was, and the
      stack holds the old records plus the "criar" record of that deletion. */
  lemma CriarDesfazer(e: Estado, caminho: string, nome: string, tipo: Kind, tamanho: int)
    requires e.raiz.Node? && Criar(e, caminho, nome, tipo, tamanho).ok
    ensures DesfazerSeguro(Criar(e, caminho, nome, tipo, tamanho).estado)
    ensures Desfazer(Criar(e, caminho, nome, tipo, tamanho).estado)
      == Desfazimento(e.(undo := e.undo + [AcaoCriar(caminho, NovoNo(nome, tipo, tamanho))]), Desfeito)
  {
    var pai := Navegar(e.raiz, caminho).value;
    var novo := NovoNo(nome, tipo, tamanho);
    var segs := Segmentos(caminho);
    var ins := Inserir(pai.filhos, novo);
    var e' := Criar(e, caminho, nome, tipo, tamanho).estado;
    assert e'.undo[..|e'.undo| - 1] == e.undo;
    ResolverSetFilhos(e.raiz, segs, ins);
    RemoverInserir(pai.filhos, novo);
    SetFilhosTwice(e.raiz, segs, ins, pai.filhos);
    SetFilhosSame(e.raiz, segs);
  }

  /** Undoing an `excluir` of a node without sibling links puts it back where it was:
      the whole state is restored. */
  lemma ExcluirDesfazer(e: Estado, caminho: string, nome: string)
    requires e.raiz.Node? && Seguro(e.raiz, caminho, nome) && Excluir(e, caminho, nome).ok
    ensures DesfazerSeguro(Excluir(e, caminho, nome).estado)
    ensures Desfazer(Excluir(e, caminho, nome).estado) == Desfazimento(e, Desfeito)
  {
    var pai := Navegar(e.raiz, caminho).value;
    var x := Find(pai.filhos, nome).value;
    var segs := Segmentos(caminho);
    var f := Remover(pai.filhos, nome).0;
    var e' := Excluir(e, caminho, nome).estado;
    RemoverRemovido(pai.filhos, nome, x);
    assert e'.undo[..|e'.undo| - 1] == e.undo;
    ResolverSetFilhos(e.raiz, segs, f);
    InserirRemover(pai.filhos, nome, x);
    SetFilhosTwice(e.raiz, segs, f, pai.filhos);
    SetFilhosSame(e.raiz, segs);
  }

  /** Undoing a `renomear` to a free name renames the node back: the tree is restored,
      and the stack holds the old records plus the record of the renaming back. */
  lemma RenomearDesfazer(e: Estado, caminho: string, antigo: string, novo: string)
    requires e.raiz.Node? && Seguro(e.raiz, caminho, antigo) && Renomear(e, caminho, antigo, novo).ok
    requires Alvo(e.raiz, caminho, novo).None?
    ensures DesfazerSeguro(Renomear(e, caminho, antigo, novo).estado)
    ensures Desfazer(Renomear(e, caminho, antigo, novo).estado)
      == Desfazimento(e.(undo := e.undo + [AcaoRenomear(caminho, antigo, novo)]), Desfeito)
  {
    var pai := Navegar(e.raiz, caminho).value;
    var t := pai.filhos;
    var x := Find(t, antigo).value;
    var x' := x.(nome := novo);
    var segs := Segmentos(caminho);
    var f := Remover(t, antigo).0;
    var ins := Inserir(f, x');
    var e' := Renomear(e, caminho, antigo, novo).estado;
    RemoverRemovido(t, antigo, x);
    SetFilhosTwice(e.raiz, segs, f, ins);
    assert e'.raiz == SetFilhos(e.raiz, segs, ins);
    ResolverSetFilhos(e.raiz, segs, ins);
    FindRemoverOther(t, antigo, x, novo);
    FindInserir(f, x');
    assert Alvo(e'.raiz, caminho, novo) == Some(x');
    RemoverInserir(f, x');
    assert x'.(nome := antigo) == x;
    InserirRemover(t, antigo, x);
    RenomearDeVolta(e, e', segs, ins, f, t, caminho, antigo, novo);
  }

  lemma RenomearDeVolta(e: Estado, e': Estado, segs: seq<string>, ins: Tree, f: Tree, t: Tree,
                        caminho: string, antigo: string, novo: string)
    requires e.raiz.Node? && segs == Segmentos(caminho)
    requires Navegar(e.raiz, caminho).Some? && t == Navegar(e.raiz, caminho).value.filhos
    requires e' == e.(raiz := SetFilhos(e.raiz, segs, ins), undo := e.undo + [AcaoRenomear(caminho, novo, antigo)])
    requires Navegar(e'.raiz, caminho) == Some(Navegar(e.raiz, caminho).value.(filhos := ins))
    requires Find(ins, novo).Some? && Detached(Find(ins, novo).value)
    requires Remover(ins, novo) == (f, Some(Find(ins, novo).value))
    requires Inserir(f, Find(ins, novo).value.(nome := antigo)) == t
    ensures DesfazerSeguro(e')
    ensures Desfazer(e') == Desfazimento(e.(undo := e.undo + [AcaoRenomear(caminho, antigo, novo)]), Desfeito)
  {
    var e1 := e'.(undo := e'.undo[..|e'.undo| - 1]);
    assert e'.undo[..|e'.undo| - 1] == e.undo;
    var x' := Find(ins, novo).value;
    SetFilhosTwice(e.raiz, segs, ins, f);
    SetFilhosTwice(e.raiz, segs, f, t);
    SetFilhosSame(e.raiz, segs);
    assert Renomear(e1, caminho, novo, antigo).estado.raiz == e.raiz;
  }
}

=== FILE: ranking.dfy ===
/** The relevance heap of organizador.py: the tuples `acessar` pushes, the order
    `heapq` pops them in, and what `sugeridos` reports. */
module Ranking {
  import opened Texto
  import opened Arvore

  /** A heap entry `(-acessos, -tamanho, nome, tipo)`. */
  datatype Entrada = Entrada(acessosNeg: int, tamanhoNeg: int, nome: string, tipo: Kind)

  /** A reported tuple `(nome, tipo, acessos, tamanho)`. */
  datatype Sugestao = Sugestao(nome: string, tipo: Kind, acessos: int, tamanho: int)

  /** `(nome, tipo, -a, -t)` for a popped `(a, t, nome, tipo)`. */
  function Exibir(e: Entrada): (s: Sugestao)
    ensures s.nome == e.nome && s.tipo == e.tipo
  {
    Sugestao(e.nome, e.tipo, -e.acessosNeg, -e.tamanhoNeg)
  }

  /** The heap entry a reported tuple came from. */
  function Chave(s: Sugestao): (e: Entrada)
    ensures e.nome == s.nome && e.tipo == s.tipo
    ensures Exibir(e) == s
  {
    Entrada(-s.acessos, -s.tamanho, s.nome, s.tipo)
  }

  /** Python's `<` on the two `tipo` strings. */
  predicate KindLt(a: Kind, b: Kind)
  {
    a == Arquivo && b == Diretorio
  }

  lemma KindLtRotulo(a: Kind, b: Kind)
    ensures KindLt(a, b) <==> Less(Rotulo(a), Rotulo(b))
  {
    LessIrreflexive(Rotulo(a));
    assert Rotulo(Arquivo)[0] == 'a' && Rotulo(Diretorio)[0] == 'd';
  }

  /** Python's tuple `<`: element by element, the first difference decides. */
  predicate Lt(x: Entrada, y: Entrada)
  {
    x.acessosNeg < y.acessosNeg
    || (x.acessosNeg == y.acessosNeg
        && (x.tamanhoNeg < y.tamanhoNeg
            || (x.tamanhoNeg == y.tamanhoNeg
                && (Less(x.nome, y.nome) || (x.nome == y.nome && KindLt(x.tipo, y.tipo))))))
  }

  lemma LtIrreflexive(x: Entrada)
    ensures !Lt(x, x)
  {
    LessIrreflexive(x.nome);
  }

  lemma LtTransitive(x: Entrada, y: Entrada, z: Entrada)
    requires Lt(x, y) && Lt(y, z)
    ensures Lt(x, z)
  {
    if x.acessosNeg == y.acessosNeg == z.acessosNeg && x.tamanhoNeg == y.tamanhoNeg == z.tamanhoNeg {
      if Less(x.nome, y.nome) && Less(y.nome, z.nome) {
        LessTransitive(x.nome, y.nome, z.nome);
      }
    }
  }

  /** The order is total: `heappop` always has a least entry to return. */
  lemma LtTotal(x: Entrada, y: Entrada)
    ensures x == y || Lt(x, y) || Lt(y, x)
  {
    LessTotal(x.nome, y.nome);
  }

  lemma LtAsymmetric(x: Entrada, y: Entrada)
    requires Lt(x, y)
    ensures !Lt(y, x)
  {
    if Lt(y, x) {
      LtTransitive(x, y, x);
      LtIrreflexive(x);
    }
  }

  /** `x` is an entry `heappop` may return from `h`. */
  predicate Minimo(x: Entrada, h: multiset<Entrada>)
  {
    x in h && forall y | y in h :: !Lt(y, x)
  }

  /** A non-empty heap has a least entry. */
  lemma {:induction false} MinimoExiste(h: multiset<Entrada>)
    requires |h| > 0
    ensures exists x :: Minimo(x, h)
    decreases |h|
  {
    var z :| z in h;
    var h' := h - multiset{z};
    assert h == h' + multiset{z};
    if |h'| == 0 {
      LtIrreflexive(z);
      assert Minimo(z, h);
    } else {
      MinimoExiste(h');
      var m :| Minimo(m, h');
      LtTotal(z, m);
      if Lt(z, m) {
        forall y | y in h ensures !Lt(y, z) {
          if y == z {
            LtIrreflexive(z);
          } else if Lt(y, z) {
            LtTransitive(y, z, m);
          }
        }
        assert Minimo(z, h);
      } else {
        LtIrreflexive(m);
        assert Minimo(m, h);
      }
    }
  }

  /** Some result carries the name `n`. */
  predicate Listado(res: seq<Sugestao>, n: string)
  {
    exists i | 0 <= i < |res| :: res[i].nome == n
  }

  /** `e` is the least entry named `e.nome` in `h`. */
  ghost predicate MelhorDoNome(e: Entrada, h: multiset<Entrada>)
  {
    e in h && forall x | x in h && x.nome == e.nome :: !Lt(x, e)
  }

  /** What `sugeridos(qtd)` returns for heap `h`: at most `qtd` results with distinct
      names, each the least entry of its name, in strictly increasing key order (more
      accesses first, then larger size, then smaller name), and no name left out that
      would have come before the last one reported or that fits within `qtd`. */
  ghost predicate Sugestoes(h: multiset<Entrada>, qtd: int, res: seq<Sugestao>)
  {
    (if qtd <= 0 then res == [] else |res| <= qtd)
    && (forall i, j | 0 <= i < j < |res| :: res[i].nome != res[j].nome)
    && (forall i | 0 <= i < |res| :: MelhorDoNome(Chave(res[i]), h))
    && (forall i, j | 0 <= i < j < |res| :: Lt(Chave(res[i]), Chave(res[j])))
    && (forall e | e in h && !Listado(res, e.nome) ::
          |res| >= qtd && forall i | 0 <= i < |res| :: Lt(Chave(res[i]), e))
  }

  /** Two entries that are each the least of the same name are the same entry. */
  lemma MelhorUnico(a: Entrada, b: Entrada, h: multiset<Entrada>)
    requires MelhorDoNome(a, h) && MelhorDoNome(b, h) && a.nome == b.nome
    ensures a == b
  {
    LtTotal(a, b);
  }

  /** The description of `sugeridos` leaves no choice: one heap and one `qtd` admit a
      single result. */
  lemma SugestoesUnicas(h: multiset<Entrada>, qtd: int, r1: seq<Sugestao>, r2: seq<Sugestao>)
    requires Sugestoes(h, qtd, r1) && Sugestoes(h, qtd, r2)
    ensures r1 == r2
  {
    PrefixoComum(h, qtd, r1, r2, 0);
  }

  /** Two valid results that agree on their first `k` tuples agree everywhere. */
  lemma {:induction false} PrefixoComum(h: multiset<Entrada>, qtd: int, r1: seq<Sugestao>, r2: seq<Sugestao>, k: nat)
    requires Sugestoes(h, qtd, r1) && Sugestoes(h, qtd, r2)
    requires k <= |r1| && k <= |r2| && r1[..k] == r2[..k]
    ensures r1 == r2
    decreases |r1| - k
  {
    if k < |r1| && k < |r2| {
      MesmoSeguinte(h, qtd, r1, r2, k);
      PrefixoComum(h, qtd, r1, r2, k + 1);
    } else if k < |r1| {
      NaoExcede(h, qtd, r1, r2);
    } else if k < |r2| {
      NaoExcede(h, qtd, r2, r1);
    } else {
      assert r1 == r1[..k] && r2 == r2[..k];
    }
  }

  /** Two valid results that agree on their first `k` tuples agree on the next one. */
  lemma MesmoSeguinte(h: multiset<Entrada>, qtd: int, r1: seq<Sugestao>, r2: seq<Sugestao>, k: nat)
    requires Sugestoes(h, qtd, r1) && Sugestoes(h, qtd, r2)
    requires k < |r1| && k < |r2| && r1[..k] == r2[..k]
    ensures r1[..k + 1] == r2[..k + 1]
  {
    PrimeiroNaoMenor(h, qtd, r1, r2, k);
    PrimeiroNaoMenor(h, qtd, r2, r1, k);
    LtTotal(Chave(r1[k]), Chave(r2[k]));
    assert r1[k] == Exibir(Chave(r1[k])) == Exibir(Chave(r2[k])) == r2[k];
    assert r1[..k + 1] == r1[..k] + [r1[k]];
    assert r2[..k + 1] == r2[..k] + [r2[k]];
  }

  /** Where two valid results first differ, neither entry is below the other. */
  lemma PrimeiroNaoMenor(h: multiset<Entrada>, qtd: int, r1: seq<Sugestao>, r2: seq<Sugestao>, k: nat)
    requires Sugestoes(h, qtd, r1) && Sugestoes(h, qtd, r2)
    requires k < |r1| && k < |r2| && r1[..k] == r2[..k]
    ensures !Lt(Chave(r1[k]), Chave(r2[k]))
  {
    var a := Chave(r1[k]);
    var b := Chave(r2[k]);
    NomesAnteriores(h, qtd, r1, r2, k);
    if Lt(a, b) {
      assert MelhorDoNome(a, h);
      if Listado(r2, a.nome) {
        var j :| 0 <= j < |r2| && r2[j].nome == a.nome;
        MelhorUnico(a, Chave(r2[j]), h);
        if j == k {
          LtIrreflexive(a);
        } else if j > k {
          LtAsymmetric(b, a);
        }
      } else {
        LtAsymmetric(b, a);
      }
    }
  }

  /** The tuples two results share come before the first difference and carry other names. */
  lemma NomesAnteriores(h: multiset<Entrada>, qtd: int, r1: seq<Sugestao>, r2: seq<Sugestao>, k: nat)
    requires Sugestoes(h, qtd, r1)
    requires k < |r1| && k <= |r2| && r1[..k] == r2[..k]
    ensures forall j | 0 <= j < k :: r2[j].nome != r1[k].nome
    ensures MelhorDoNome(Chave(r1[k]), h)
  {
    forall j | 0 <= j < k ensures r2[j].nome != r1[k].nome {
      assert r2[j] == r1[..k][j];
    }
  }

  /** A valid result that extends another valid result is no longer than it. */
  lemma NaoExcede(h: multiset<Entrada>, qtd: int, r1: seq<Sugestao>, r2: seq<Sugestao>)
    requires Sugestoes(h, qtd, r1) && Sugestoes(h, qtd, r2)
    requires |r2| <= |r1| && r1[..|r2|] == r2
    ensures |r1| == |r2|
  {
    if |r2| < |r1| {
      NomesAnteriores(h, qtd, r1, r2, |r2|);
    }
  }
}

=== FILE: serial.dfy ===
/** `Node.to_dict` and `Node.from_dict`: a node as the nested dictionary that is written
    to JSON, and back. */
module Serial {
  import opened Texto
  import opened Arvore

  /** The JSON values a node dictionary holds: `None`, strings, integers and objects. */
  datatype Valor =
    | Nulo
    | Cadeia(s: string)
    | Inteiro(i: int)
    | Objeto(campos: map<string, Valor>)

  /** The subtree field of `to_dict`: `x.to_dict() if x else None`. */
  function ToDict(t: Tree): (v: Valor)
    ensures t.Leaf? <==> v == Nulo
    ensures t.Node? ==> v.Objeto? && v.campos.Keys == {"nome", "tipo", "tamanho", "acessos", "esq", "dir", "filhos"}
  {
    match t
    case Leaf => Nulo
    case Node(_, _, _, _, _, _, _) =>
      Objeto(map[
        "nome" := Cadeia(t.nome),
        "tipo" := Cadeia(Rotulo(t.tipo)),
        "tamanho" := Inteiro(t.tamanho),
        "acessos" := Inteiro(t.acessos),
        "esq" := ToDict(t.esq),
        "dir" := ToDict(t.dir),
        "filhos" := ToDict(t.filhos)])
  }

  /** The `tipo` a stored string names. */
  function TipoDe(s: string): (k: Option<Kind>)
    ensures k.Some? ==> Rotulo(k.value) == s
  {
    if s == "arquivo" then Some(Arquivo)
    else if s == "diretorio" then Some(Diretorio)
    else None
  }

  /** `not d`: the values `from_dict` turns into `None`. */
  predicate Falso(v: Valor)
  {
    match v
    case Nulo => true
    case Cadeia(s) => s == ""
    case Inteiro(i) => i == 0
    case Objeto(m) => m == map[]
  }

  /** `Node.from_dict(d)`. `Some(Leaf)` is Python's `None`; `None` is a dictionary the
      call raises on (a missing "nome", "tipo" or "tamanho", or a non-empty string or
      non-zero integer where a dictionary is expected) or one whose fields a node here
      cannot hold. Missing "acessos" counts as 0 and missing links as `None`. */
  function FromDict(v: Valor): (r: Option<Tree>)
    ensures Falso(v) ==> r == Some(Leaf)
    ensures r.Some? && r.value.Node? ==> v.Objeto? && "nome" in v.campos && v.campos["nome"] == Cadeia(r.value.nome)
  {
    if Falso(v) then Some(Leaf)
    else if !v.Objeto? then None
    else
      var m := v.campos;
      if !("nome" in m && "tipo" in m && "tamanho" in m) then None
      else
        var acessos := if "acessos" in m then m["acessos"] else Inteiro(0);
        var esq := if "esq" in m then FromDict(m["esq"]) else Some(Leaf);
        var dir := if "dir" in m then FromDict(m["dir"]) else Some(Leaf);
        var filhos := if "filhos" in m then FromDict(m["filhos"]) else Some(Leaf);
        match (m["nome"], m["tipo"], m["tamanho"], acessos)
        case (Cadeia(nome), Cadeia(tipo), Inteiro(tamanho), Inteiro(a)) =>
          if TipoDe(tipo).None? || esq.None? || dir.None? || filhos.None? then None
          else Some(Node(nome, TipoDe(tipo).value, tamanho, a, esq.value, dir.value, filhos.value))
        case _ => None
  }

  /** Reading back what `to_dict` wrote gives the same node, links and children included. */
  lemma {:induction false} FromDictToDict(t: Tree)
    ensures FromDict(ToDict(t)) == Some(t)
  {
    if t.Node? {
      FromDictToDict(t.esq);
      FromDictToDict(t.dir);
      FromDictToDict(t.filhos);
      assert TipoDe(Rotulo(t.tipo)) == Some(t.tipo);
      assert !Falso(ToDict(t)) by {
        assert "nome" in ToDict(t).campos;
      }
    }
  }

  /** Two nodes with the same dictionary are the same node. */
  lemma ToDictInjective(a: Tree, b: Tree)
    requires ToDict(a) == ToDict(b)
    ensures a == b
  {
    FromDictToDict(a);
    FromDictToDict(b);
  }
}

=== FILE: sistema.dfy ===
/** The class `SistemaArquivos`: the root directory, the relevance heap and the undo
    stack as fields, and each operation as a method that updates them. Every method is
    proved to perform the transition of the same name in `Operacoes`. */
module Sistema {
  import opened Texto
  import opened Arvore
  import opened Ranking
  import Caminho
  import Operacoes
  import L = Listagem

  class SistemaArquivos {
    var raiz: Tree
    var heap: multiset<Entrada>
    var undo: seq<Operacoes.Acao>

    /** The three fields as one state. */
    function Atual(): (e: Operacoes.Estado)
      reads this
      ensures e.raiz == raiz && e.heap == heap && e.undo == undo
    {
      Operacoes.Estado(raiz, heap, undo)
    }

    ghost predicate Valid()
      reads this
    {
      Operacoes.Valido(Atual())
    }

    /** `__init__` without the load: the root directory "/" alone, nothing to suggest or
        undo. */
    constructor ()
      ensures Valid() && Atual() == Operacoes.Inicial()
    {
      raiz := NovoNo("/", Diretorio, 0);
      heap := multiset{};
      undo := [];
    }

    /** `_navegar(caminho)`: one lookup per segment from the root. */
    method Navegar(caminho: string) returns (r: Option<Tree>)
      requires raiz.Node?
      ensures r == Caminho.Navegar(raiz, caminho)
    {
      var atual := raiz;
      if caminho == "/" {
        return Some(atual);
      }
      var partes := Split(Strip(caminho));
      assert partes == Caminho.Segmentos(caminho);
      var i := 0;
      while i < |partes|
        invariant 0 <= i <= |partes|
        invariant atual.Node? && Caminho.Resolver(raiz, partes) == Caminho.Resolver(atual, partes[i..])
      {
        assert partes[i..][0] == partes[i] && partes[i..][1..] == partes[i + 1..];
        var prox := BuscarBst(atual.filhos, partes[i]);
        if prox.None? || prox.value.tipo != Diretorio {
          return None;
        }
        atual := prox.value;
        i := i + 1;
      }
      return Some(atual);
    }

    /** `criar(caminho, nome, tipo, tamanho)` */
    method Criar(caminho: string, nome: string, tipo: Kind, tamanho: int) returns (ok: bool)
      requires Valid()
      modifies this
      ensures Valid()
      ensures Operacoes.Passo(Atual(), ok) == Operacoes.Criar(old(Atual()), caminho, nome, tipo, tamanho)
    {
      ghost var e := Atual();
      Operacoes.CriarValido(e, caminho, nome, tipo, tamanho);
      var pai := Navegar(caminho);
      if pai.None? {
        return false;
      }
      var existente := BuscarBst(pai.value.filhos, nome);
      if existente.Some? {
        return false;
      }
      var novo := NovoNo(nome, tipo, tamanho);
      raiz := Caminho.SetFilhos(raiz, Caminho.Segmentos(caminho), Inserir(pai.value.filhos, novo));
      undo := undo + [Operacoes.AcaoExcluir(caminho, nome)];
      assert Atual() == Operacoes.Criar(e, caminho, nome, tipo, tamanho).estado;
      return true;
    }

    /** `excluir(caminho, nome)` */
    method Excluir(caminho: string, nome: string) returns (ok: bool)
      requires Valid()
      modifies this
      ensures Valid()
      ensures Operacoes.Passo(Atual(), ok) == Operacoes.Excluir(old(Atual()), caminho, nome)
    {
      ghost var e := Atual();
      Operacoes.ExcluirValido(e, caminho, nome);
      var pai := Navegar(caminho);
      if pai.None? {
        return false;
      }
      var filhos, removido := ExcluirBst(pai.value.filhos, nome);
      raiz := Caminho.SetFilhos(raiz, Caminho.Segmentos(caminho), filhos);
      if removido.None? {
        return false;
      }
      undo := undo + [Operacoes.AcaoCriar(caminho, removido.value)];
      assert Atual() == Operacoes.Excluir(e, caminho, nome).estado;
      return true;
    }

    /** `renomear(caminho, antigo, novo)` */
    method Renomear(caminho: string, antigo: string, novo: string) returns (ok: bool)
      requires Valid() && Operacoes.Seguro(raiz, caminho, antigo)
      modifies this
      ensures Valid()
      ensures Operacoes.Passo(Atual(), ok) == Operacoes.Renomear(old(Atual()), caminho, antigo, novo)
    {
      ghost var e := Atual();
      var pai := Navegar(caminho);
      if pai.None? {
        return false;
      }
      var segs := Caminho.Segmentos(caminho);
      var filhos, node := ExcluirBst(pai.value.filhos, antigo);
      RemoverFind(pai.value.filhos, antigo);
      raiz := Caminho.SetFilhos(raiz, segs, filhos);
      if node.None? {
        Caminho.SetFilhosSame(e.raiz, segs);
        return false;
      }
      Operacoes.RenomearPassos(e, caminho, antigo, novo, pai.value, filhos, node.value);
      var renomeado := node.value.(nome := novo);
      raiz := Caminho.SetFilhos(raiz, segs, Inserir(filhos, renomeado));
      undo := undo + [Operacoes.AcaoRenomear(caminho, novo, antigo)];
      assert Atual() == Operacoes.Estado(Caminho.SetFilhos(Caminho.SetFilhos(e.raiz, segs, filhos), segs, Inserir(filhos, renomeado)),
                                         e.heap, e.undo + [Operacoes.AcaoRenomear(caminho, novo, antigo)]);
      return true;
    }

    /** `mover(origem, nome, destino)`; the destination is looked up again once the node
        has left `origem`. */
    method Mover(origem: string, nome: string, destino: string) returns (ok: bool)
      requires Valid() && Operacoes.MoverSeguro(raiz, origem, nome, destino)
      modifies this
      ensures Valid()
      ensures Operacoes.Passo(Atual(), ok) == Operacoes.Mover(old(Atual()), origem, nome, destino)
    {
      ghost var e := Atual();
      Operacoes.MoverValido(e, origem, nome, destino);
      var paiOrigem := Navegar(origem);
      var paiDestino := Navegar(destino);
      if paiOrigem.None? || paiDestino.None? {
        return false;
      }
      var filhos, node := ExcluirBst(paiOrigem.value.filhos, nome);
      raiz := Caminho.SetFilhos(raiz, Caminho.Segmentos(origem), filhos);
      if node.None? {
        return false;
      }
      Operacoes.DestinoPermanece(e.raiz, origem, nome, destino);
      paiDestino := Navegar(destino);
      raiz := Caminho.SetFilhos(raiz, Caminho.Segmentos(destino), Inserir(paiDestino.value.filhos, node.value));
      undo := undo + [Operacoes.AcaoMover(destino, nome, origem)];
      assert Atual() == Operacoes.Mover(e, origem, nome, destino).estado;
      return true;
    }

    /** `acessar(caminho, nome)` */
    method Acessar(caminho: string, nome: string) returns (ok: bool)
      requires Valid()
      modifies this
      ensures Valid()
      ensures Operacoes.Passo(Atual(), ok) == Operacoes.Acessar(old(Atual()), caminho, nome)
    {
      ghost var e := Atual();
      Operacoes.AcessarValido(e, caminho, nome);
      var pai := Navegar(caminho);
      if pai.None? {
        return false;
      }
      var n := BuscarBst(pai.value.filhos, nome);
      if n.None? {
        return false;
      }
      var acessado := Operacoes.Acessado(n.value);
      raiz := Caminho.SetFilhos(raiz, Caminho.Segmentos(caminho), Substituir(pai.value.filhos, nome, acessado));
      Empurrar(Operacoes.Registro(acessado));
      assert Atual() == Operacoes.Acessar(e, caminho, nome).estado;
      return true;
    }

    /** `sugeridos(qtd)`: pop entries until `qtd` names are reported or the heap runs
        out, keep the first entry of each name, then push every popped entry back. */
    method Sugeridos(qtd: int) returns (res: seq<Sugestao>)
      modifies this
      ensures heap == old(heap) && raiz == old(raiz) && undo == old(undo)
      ensures Sugestoes(heap, qtd, res)
    {
      ghost var h0 := heap;
      var vistos: set<string> := {};
      res := [];
      var temp: seq<Entrada> := [];
      ParcialInicial(h0, qtd);
      while heap != multiset{} && |res| < qtd
        invariant Parcial(h0, heap, temp, vistos, res, qtd)
        invariant raiz == old(raiz) && undo == old(undo)
        decreases |heap|
      {
        ghost var antes := heap;
        var x := Retirar();
        PassoParcial(h0, antes, temp, vistos, res, qtd, x);
        if x.nome !in vistos {
          res := res + [Exibir(x)];
          vistos := vistos + {x.nome};
        }
        temp := temp + [x];
      }
      Completo(h0, heap, temp, vistos, res, qtd);
      Devolver(temp);
    }

    /** The closing loop of `sugeridos`: every popped entry is pushed back. */
    method Devolver(temp: seq<Entrada>)
      modifies this
      ensures heap == old(heap) + multiset(temp) && raiz == old(raiz) && undo == old(undo)
    {
      for k := 0 to |temp|
        invariant heap == old(heap) + multiset(temp[..k])
        invariant raiz == old(raiz) && undo == old(undo)
      {
        assert temp[..k + 1] == temp[..k] + [temp[k]];
        Empurrar(temp[k]);
      }
      assert temp[..|temp|] == temp;
    }

    /** `heapq.heappop(self.heap)`: takes out a least entry. */
    method Retirar() returns (x: Entrada)
      requires heap != multiset{}
      modifies this
      ensures Minimo(x, old(heap)) && heap == old(heap) - multiset{x}
      ensures raiz == old(raiz) && undo == old(undo)
    {
      MinimoExiste(heap);
      x :| Minimo(x, heap);
      heap := heap - multiset{x};
    }

    /** `heapq.heappush(self.heap, x)` */
    method Empurrar(x: Entrada)
      modifies this
      ensures heap == old(heap) + multiset{x} && raiz == old(raiz) && undo == old(undo)
    {
      heap := heap + multiset{x};
    }

    /** `listar(caminho)` */
    method Listar(caminho: string) returns (res: seq<L.Item>)
      requires raiz.Node?
      ensures res == L.Listar(raiz, caminho)
    {
      var pai := Navegar(caminho);
      if pai.None? {
        return [];
      }
      res := ListarRecursivo(pai.value.filhos, RStrip(caminho), []);
    }

    /** `_listar_recursivo(node, caminho_atual, res)`, with the list it appends to passed
        in as `acc` and handed back. */
    method ListarRecursivo(node: Tree, atual: string, acc: seq<L.Item>) returns (res: seq<L.Item>)
      ensures res == acc + L.Listagem(node, atual)
      decreases node
    {
      if node.Leaf? {
        return acc;
      }
      res := ListarRecursivo(node.esq, atual, acc);
      ghost var antes := res;
      var completo := L.CaminhoCompleto(atual, node.nome);
      res := res + [L.Item(completo, node.tipo)];
      if node.tipo == Diretorio && node.filhos.Node? {
        res := ListarRecursivo(node.filhos, completo, res);
        Concat3(antes, [L.Item(completo, node.tipo)], L.Listagem(node.filhos, completo));
      }
      assert res == antes + L.Bloco(node, atual);
      res := ListarRecursivo(node.dir, atual, res);
      Concat4(acc, L.Listagem(node.esq, atual), L.Bloco(node, atual), L.Listagem(node.dir, atual));
    }

    /** `desfazer()` */
    method Desfazer() returns (d: Operacoes.Desfecho)
      requires Valid() && Operacoes.DesfazerSeguro(Atual())
      modifies this
      ensures Valid()
      ensures Operacoes.Desfazimento(Atual(), d) == Operacoes.Desfazer(old(Atual()))
    {
      if undo == [] {
        return Operacoes.NadaParaDesfazer;
      }
      var acao := undo[|undo| - 1];
      Operacoes.PopValido(Atual());
      undo := undo[..|undo| - 1];
      d := Repetir(acao);
    }

    /** The branch of `desfazer` that replays one popped record. */
    method Repetir(acao: Operacoes.Acao) returns (d: Operacoes.Desfecho)
      requires Valid() && Operacoes.RepetirSeguro(raiz, acao)
      requires acao.AcaoCriar? ==> acao.no.Node? && WellFormed(acao.no)
      modifies this
      ensures Valid()
      ensures Operacoes.Desfazimento(Atual(), d) == Operacoes.Repetir(old(Atual()), acao)
    {
      match acao {
        case AcaoExcluir(c, n) =>
          var _ := Excluir(c, n);
        case AcaoCriar(c, no) =>
          var pai := Navegar(c);
          if pai.None? {
            return Operacoes.Erro;
          }
          Operacoes.ReinserirValido(Atual(), c, no);
          raiz := Caminho.SetFilhos(raiz, Caminho.Segmentos(c), Inserir(pai.value.filhos, no));
        case AcaoRenomear(c, atual, antigo) =>
          var _ := Renomear(c, atual, antigo);
        case AcaoMover(destino, n, origem) =>
          var _ := Mover(destino, n, origem);
      }
      return Operacoes.Desfeito;
    }
  }

  /** What holds between the pops of `sugeridos`: the popped entries and the heap make
      up the original heap, and the reported tuples already meet the description of
      the result. */
  ghost predicate Parcial(h0: multiset<Entrada>, heap: multiset<Entrada>, temp: seq<Entrada>,
                          vistos: set<string>, res: seq<Sugestao>, qtd: int)
  {
    Particao(h0, heap, temp, vistos, res) && Relatorio(h0, res, qtd)
  }

  /** `temp` and the heap make up `h0`, no entry left is below a popped one, `vistos`
      holds the reported names, and each reported tuple comes from a popped entry. */
  ghost predicate Particao(h0: multiset<Entrada>, heap: multiset<Entrada>, temp: seq<Entrada>,
                           vistos: set<string>, res: seq<Sugestao>)
  {
    h0 == heap + multiset(temp)
    && (forall n :: n in vistos <==> Listado(res, n))
    && (forall y | y in temp :: y.nome in vistos)
    && (forall y, z | y in heap && z in temp :: !Lt(y, z))
    && (forall i | 0 <= i < |res| :: Chave(res[i]) in temp)
  }

  /** The part of `Sugestoes` that a prefix of the result already meets. */
  ghost predicate Relatorio(h0: multiset<Entrada>, res: seq<Sugestao>, qtd: int)
  {
    (if qtd <= 0 then res == [] else |res| <= qtd)
    && (forall i, j | 0 <= i < j < |res| :: res[i].nome != res[j].nome)
    && (forall i | 0 <= i < |res| :: MelhorDoNome(Chave(res[i]), h0))
    && (forall i, j | 0 <= i < j < |res| :: Lt(Chave(res[i]), Chave(res[j])))
  }

  /** Before the first pop nothing is reported. */
  lemma ParcialInicial(h0: multiset<Entrada>, qtd: int)
    ensures Parcial(h0, h0, [], {}, [], qtd)
  {
  }

  /** One pop of the least entry keeps `Parcial`. */
  lemma PassoParcial(h0: multiset<Entrada>, heap: multiset<Entrada>, temp: seq<Entrada>,
                     vistos: set<string>, res: seq<Sugestao>, qtd: int, x: Entrada)
    requires Parcial(h0, heap, temp, vistos, res, qtd) && |res| < qtd && Minimo(x, heap)
    ensures x.nome in vistos ==>
      Parcial(h0, heap - multiset{x}, temp + [x], vistos, res, qtd)
    ensures x.nome !in vistos ==>
      Parcial(h0, heap - multiset{x}, temp + [x], vistos + {x.nome}, res + [Exibir(x)], qtd)
  {
    PassoPop(h0, heap, temp, x);
    if x.nome in vistos {
      PassoVisto(h0, heap, temp, vistos, res, x);
    } else {
      assert h0 == (heap - multiset{x}) + multiset{x} + multiset(temp);
      Novo(h0, heap - multiset{x}, temp, res, x);
      PassoNovo(h0, heap, temp, vistos, res, x);
      RelatorioNovo(h0, res, qtd, x);
    }
  }

  /** The popped entry and the remaining heap still make up the original heap, and the
      popped entries stay below what is left. */
  lemma PassoPop(h0: multiset<Entrada>, heap: multiset<Entrada>, temp: seq<Entrada>, x: Entrada)
    requires h0 == heap + multiset(temp) && Minimo(x, heap)
    requires forall y, z | y in heap && z in temp :: !Lt(y, z)
    ensures h0 == (heap - multiset{x}) + multiset(temp + [x])
    ensures forall y, z | y in heap - multiset{x} && z in temp + [x] :: !Lt(y, z)
  {
    assert heap == (heap - multiset{x}) + multiset{x};
    assert multiset(temp + [x]) == multiset(temp) + multiset{x};
  }

  /** A pop whose name was already reported only moves the entry to `temp`. */
  lemma PassoVisto(h0: multiset<Entrada>, heap: multiset<Entrada>, temp: seq<Entrada>,
                   vistos: set<string>, res: seq<Sugestao>, x: Entrada)
    requires Particao(h0, heap, temp, vistos, res) && x.nome in vistos
    requires h0 == (heap - multiset{x}) + multiset(temp + [x])
    requires forall y, z | y in heap - multiset{x} && z in temp + [x] :: !Lt(y, z)
    ensures Particao(h0, heap - multiset{x}, temp + [x], vistos, res)
  {
    forall i | 0 <= i < |res| ensures Chave(res[i]) in temp + [x] {
      assert Chave(res[i]) in temp;
    }
  }

  /** A pop of a new name records it in `vistos` and reports it. */
  lemma PassoNovo(h0: multiset<Entrada>, heap: multiset<Entrada>, temp: seq<Entrada>,
                  vistos: set<string>, res: seq<Sugestao>, x: Entrada)
    requires Particao(h0, heap, temp, vistos, res)
    requires h0 == (heap - multiset{x}) + multiset(temp + [x])
    requires forall y, z | y in heap - multiset{x} && z in temp + [x] :: !Lt(y, z)
    ensures Particao(h0, heap - multiset{x}, temp + [x], vistos + {x.nome}, res + [Exibir(x)])
  {
    var temp' := temp + [x];
    var res' := res + [Exibir(x)];
    assert Chave(Exibir(x)) == x;
    forall n ensures n in vistos + {x.nome} <==> Listado(res', n) {
      ListadoAppend(res, Exibir(x), n);
    }
    forall i | 0 <= i < |res'| ensures Chave(res'[i]) in temp' {
      if i < |res| {
        assert res'[i] == res[i];
        assert Chave(res[i]) in temp;
      }
    }
  }

  /** Reporting the least entry of a new name, which comes after every reported one,
      keeps the reported prefix as `Sugestoes` describes it. */
  lemma RelatorioNovo(h0: multiset<Entrada>, res: seq<Sugestao>, qtd: int, x: Entrada)
    requires Relatorio(h0, res, qtd) && |res| < qtd
    requires !Listado(res, x.nome) && MelhorDoNome(x, h0)
    requires forall i | 0 <= i < |res| :: Lt(Chave(res[i]), x)
    ensures Relatorio(h0, res + [Exibir(x)], qtd)
  {
    var res' := res + [Exibir(x)];
    assert Chave(Exibir(x)) == x;
    forall i, j | 0 <= i < j < |res'| ensures res'[i].nome != res'[j].nome && Lt(Chave(res'[i]), Chave(res'[j])) {
      assert res'[i] == res[i];
      if j < |res| {
        assert res'[j] == res[j];
      } else {
        assert Listado(res, res[i].nome);
      }
    }
    forall i | 0 <= i < |res'| ensures MelhorDoNome(Chave(res'[i]), h0) {
      if i < |res| {
        assert res'[i] == res[i];
      }
    }
  }

  lemma ListadoAppend(res: seq<Sugestao>, s: Sugestao, n: string)
    ensures Listado(res + [s], n) <==> Listado(res, n) || s.nome == n
  {
    if Listado(res, n) {
      var i :| 0 <= i < |res| && res[i].nome == n;
      assert (res + [s])[i] == res[i];
    }
    if s.nome == n {
      assert (res + [s])[|res|] == s;
    }
    if Listado(res + [s], n) {
      var i :| 0 <= i < |res| + 1 && (res + [s])[i].nome == n;
      if i < |res| {
        assert (res + [s])[i] == res[i];
      }
    }
  }

  /** A newly popped least entry whose name is not yet reported comes after every
      reported entry and is the least entry of its name. */
  lemma Novo(h0: multiset<Entrada>, heap: multiset<Entrada>, temp: seq<Entrada>, res: seq<Sugestao>, x: Entrada)
    requires h0 == heap + multiset{x} + multiset(temp)
    requires forall y | y in heap :: !Lt(y, x)
    requires forall y | y in temp :: Listado(res, y.nome)
    requires forall y | y in temp :: !Lt(x, y)
    requires forall i | 0 <= i < |res| :: Chave(res[i]) in temp
    requires !Listado(res, x.nome)
    ensures MelhorDoNome(x, h0)
    ensures forall i | 0 <= i < |res| :: Lt(Chave(res[i]), x)
  {
    forall y | y in h0 && y.nome == x.nome ensures !Lt(y, x) {
      if y == x {
        LtIrreflexive(x);
      }
    }
    forall i | 0 <= i < |res| ensures Lt(Chave(res[i]), x) {
      LtTotal(Chave(res[i]), x);
      assert Listado(res, res[i].nome);
    }
  }

  /** When the popping stops, either the heap is empty or `qtd` names were reported, and
      every entry whose name was not reported is still on the heap: the result is the one
      described by `Sugestoes`. */
  lemma Completo(h0: multiset<Entrada>, heap: multiset<Entrada>, temp: seq<Entrada>,
                 vistos: set<string>, res: seq<Sugestao>, qtd: int)
    requires Parcial(h0, heap, temp, vistos, res, qtd)
    requires heap == multiset{} || |res| >= qtd
    ensures Sugestoes(h0, qtd, res)
  {
    forall e | e in h0 && !Listado(res, e.nome)
      ensures |res| >= qtd && forall i | 0 <= i < |res| :: Lt(Chave(res[i]), e)
    {
      assert e !in temp;
      assert e in heap;
      forall i | 0 <= i < |res| ensures Lt(Chave(res[i]), e) {
        LtTotal(Chave(res[i]), e);
        assert Listado(res, res[i].nome);
      }
    }
  }
}

=== FILE: texto.dfy ===
/** Strings as Python's str treats them in organizador.py: ordering, strip, split and
    the `replace("//", "/")` used to build listed paths. */
module Texto {

  datatype Option<T> = None | Some(value: T)

  /** Python's `a < b` on str: lexicographic by code point, a proper prefix is smaller. */
  predicate Less(a: string, b: string)
  {
    if |b| == 0 then false
    else if |a| == 0 then true
    else if a[0] != b[0] then a[0] < b[0]
    else Less(a[1..], b[1..])
  }

  lemma {:induction false} LessIrreflexive(a: string)
    ensures !Less(a, a)
  {
    if |a| > 0 {
      LessIrreflexive(a[1..]);
    }
  }

  lemma {:induction false} LessTransitive(a: string, b: string, c: string)
    requires Less(a, b) && Less(b, c)
    ensures Less(a, c)
  {
    if |a| > 0 && a[0] == b[0] && b[0] == c[0] {
      LessTransitive(a[1..], b[1..], c[1..]);
    }
  }

  /** Any two strings are equal or ordered one way: Python's str order is total. */
  lemma {:induction false} LessTotal(a: string, b: string)
    ensures a == b || Less(a, b) || Less(b, a)
  {
    if |a| > 0 && |b| > 0 && a[0] == b[0] {
      LessTotal(a[1..], b[1..]);
      if a[1..] == b[1..] {
        assert a == [a[0]] + a[1..] && b == [b[0]] + b[1..];
      }
    }
  }

  lemma {:induction false} LessAsymmetric(a: string, b: string)
    requires Less(a, b)
    ensures !Less(b, a)
  {
    if Less(b, a) {
      LessTransitive(a, b, a);
      LessIrreflexive(a);
    }
  }

  /** `a >= b` and `b > c` give `a > c`, written with Less only. */
  lemma NotLessThenLess(a: string, b: string, c: string)
    requires !Less(a, b) && Less(c, b)
    ensures Less(c, a)
  {
    LessTotal(a, b);
    if a != b {
      LessTransitive(c, b, a);
    }
  }

  /** `a > b` and `b >= c` give `a > c`. */
  lemma LessThenNotLess(a: string, b: string, c: string)
    requires Less(a, b) && !Less(c, b)
    ensures Less(a, c)
  {
    LessTotal(b, c);
    if b != c {
      LessTransitive(a, b, c);
    }
  }

  /** `s.lstrip("/")` */
  function LStrip(s: string): (r: string)
    ensures |r| <= |s| && r == s[|s| - |r|..]
    ensures r == [] || r[0] != '/'
    ensures forall i | 0 <= i < |s| - |r| :: s[i] == '/'
  {
    if |s| > 0 && s[0] == '/' then LStrip(s[1..]) else s
  }

  /** `s.rstrip("/")` */
  function RStrip(s: string): (r: string)
    ensures |r| <= |s| && r == s[..|r|]
    ensures r == [] || r[|r| - 1] != '/'
    ensures forall i | |r| <= i < |s| :: s[i] == '/'
  {
    if |s| > 0 && s[|s| - 1] == '/' then RStrip(s[..|s| - 1]) else s
  }

  /** `s.strip("/")` */
  function Strip(s: string): string
  {
    RStrip(LStrip(s))
  }

  /** `s.split("/")`: never empty, no part holds the separator. */
  function Split(s: string): (parts: seq<string>)
    ensures |parts| >= 1
    ensures forall p | p in parts :: '/' !in p
  {
    if |s| == 0 then [""]
    else if s[0] == '/' then [""] + Split(s[1..])
    else
      var rest := Split(s[1..]);
      [[s[0]] + rest[0]] + rest[1..]
  }

  /** `"/".join(parts)` */
  function Join(parts: seq<string>): string
    requires |parts| >= 1
  {
    if |parts| == 1 then parts[0] else parts[0] + "/" + Join(parts[1..])
  }

  /** Joining the parts of a split gives the string back. */
  lemma {:induction false} JoinSplit(s: string)
    ensures Join(Split(s)) == s
  {
    if |s| > 0 {
      JoinSplit(s[1..]);
      if s[0] == '/' {
        JoinSplitSlash(s);
      } else {
        JoinSplitChar(s);
      }
    }
  }

  lemma JoinSplitSlash(s: string)
    requires |s| > 0 && s[0] == '/' && Join(Split(s[1..])) == s[1..]
    ensures Join(Split(s)) == s
  {
    assert Split(s) == [""] + Split(s[1..]);
    assert Split(s)[1..] == Split(s[1..]);
    assert s == "" + "/" + s[1..];
  }

  lemma JoinSplitChar(s: string)
    requires |s| > 0 && s[0] != '/' && Join(Split(s[1..])) == s[1..]
    ensures Join(Split(s)) == s
  {
    var rest := Split(s[1..]);
    var sp := Split(s);
    assert sp == [[s[0]] + rest[0]] + rest[1..];
    assert sp[0] == [s[0]] + rest[0];
    assert s == [s[0]] + s[1..];
    if |rest| == 1 {
      assert Join(sp) == sp[0];
      assert Join(rest) == rest[0];
    } else {
      var j := Join(rest[1..]);
      assert sp[1..] == rest[1..];
      assert Join(sp) == sp[0] + "/" + j;
      assert Join(rest) == rest[0] + "/" + j;
      Concat4([s[0]], rest[0], "/", j);
    }
  }

  lemma Concat3<T>(a: seq<T>, b: seq<T>, c: seq<T>)
    ensures a + b + c == a + (b + c)
  {
  }

  lemma Concat4<T>(a: seq<T>, b: seq<T>, c: seq<T>, d: seq<T>)
    ensures a + b + c + d == a + (b + c + d)
  {
  }

  /** Splitting a join of separator-free parts gives the parts back. */
  lemma {:induction false} SplitJoin(parts: seq<string>)
    requires |parts| >= 1
    requires forall p | p in parts :: '/' !in p
    ensures Split(Join(parts)) == parts
  {
    if |parts| == 1 {
      SplitPlain(parts[0]);
    } else {
      SplitJoin(parts[1..]);
      SplitPrefix(parts[0], Join(parts[1..]));
      assert parts == [parts[0]] + parts[1..];
    }
  }

  lemma {:induction false} SplitPlain(p: string)
    requires '/' !in p
    ensures Split(p) == [p]
  {
    if |p| > 0 {
      SplitPlain(p[1..]);
      assert p == [p[0]] + p[1..];
    }
  }

  lemma {:induction false} SplitPrefix(p: string, s: string)
    requires '/' !in p
    ensures Split(p + "/" + s) == [p] + Split(s)
  {
    if |p| == 0 {
      assert p + "/" + s == "/" + s;
      assert ("/" + s)[1..] == s;
    } else {
      SplitPrefix(p[1..], s);
      assert (p + "/" + s)[1..] == p[1..] + "/" + s;
      assert p == [p[0]] + p[1..];
    }
  }

  /** `s.replace("//", "/")`: Python replaces non-overlapping occurrences from the left. */
  function CollapseSlashes(s: string): (r: string)
    ensures |r| <= |s|
  {
    if |s| >= 2 && s[0] == '/' && s[1] == '/' then "/" + CollapseSlashes(s[2..])
    else if |s| == 0 then ""
    else [s[0]] + CollapseSlashes(s[1..])
  }

  predicate NoDoubleSlash(s: string)
  {
    forall i | 0 <= i < |s| - 1 :: !(s[i] == '/' && s[i + 1] == '/')
  }

  /** The replacement leaves a string without "//" as it is, and only then. */
  lemma {:induction false} CollapseSlashesIdentity(s: string)
    ensures CollapseSlashes(s) == s <==> NoDoubleSlash(s)
  {
    if |s| >= 2 && s[0] == '/' && s[1] == '/' {
      assert |CollapseSlashes(s)| < |s|;
    } else if |s| > 0 {
      CollapseSlashesIdentity(s[1..]);
      assert NoDoubleSlash(s) <==> NoDoubleSlash(s[1..]) by {
        if NoDoubleSlash(s[1..]) {
          forall i | 0 <= i < |s| - 1 ensures !(s[i] == '/' && s[i + 1] == '/') {
            if i > 0 {
              assert s[i] == s[1..][i - 1] && s[i + 1] == s[1..][i];
            }
          }
        }
        if NoDoubleSlash(s) {
          forall i | 0 <= i < |s[1..]| - 1 ensures !(s[1..][i] == '/' && s[1..][i + 1] == '/') {
            assert s[1..][i] == s[i + 1] && s[1..][i + 1] == s[i + 2];
          }
        }
      }
      assert s == [s[0]] + s[1..];
    }
  }
}
